=== FILE: README.md ===
# nizifs on-disk format, in Dafny

nizifs is a small single-directory Linux filesystem. It has a fixed 512-byte superblock in
block 0. A table of 64-byte file entries follows from block 1, each with a 16-byte name, size,
timestamp, perms and nine direct block slots. Data blocks come after the table. This project
models four pieces of it as pure functions over byte sequences and block maps, and proves what
each promises:

- the record layouts of both headers and their byte images, with decode/encode round trips;
- the formatter `mkfs_nizifs`: the layout arithmetic, the exact backing-file image it writes,
  and its exit statuses;
- the kernel's reads: address translation, the block-crossing guard, the entry and superblock
  reads;
- mount-time initialisation `init_nizifs_info`. Its used-block map is characterised exactly: a
  block is used iff it lies below `data_block_start` or a live entry lists it before its first
  zero slot;
- the computational parts of the inode operations: the 3-bit perms, the name buffer, and the
  status mapping of create, lookup and unlink.

Cross-file theorems connect the formatter and the kernel:

- a freshly formatted partition, read through a block device, passes the magic check;
- every slot of its table reads back as the empty entry;
- it mounts with exactly the blocks `[0, data_block_start)` in use.

Modules, one per source file: `Nizifs` (nizifs.h), `NizifsDs` (nizifs_ds.h), `Mkfs`
(mkfs_nizifs.c), `RealIo` (real_io.c), `Super` (super.c) and `Inode` (inode.c). `Formatted`
holds the cross-file theorems. `Bytes`, `Seqs`, `Arith` and `Errno` are support modules:
little-endian words, sequence helpers, one-step arithmetic facts, and error codes.

Modelling choices:

- `uint4_t` and `byte4_t` are unsigned 32-bit values (`Bytes.u32`). Every multiplication the
  source does in them is wrapped explicitly with `Bytes.Wrap`. Records are laid out
  little-endian, as `memcpy` on the target leaves them.
- A block device is a map from device block number to that block's bytes. A block absent from
  the map is one `sb_bread` cannot read.
- Error codes are the kernel's negative `errno` values.
- The storage calls (`nizifs_create_file`, `nizifs_lookup_file`, `nizifs_remove_file`) are
  parameters of the inode functions, and so are the outcomes of `new_inode`,
  `insert_inode_locked` and `iget_locked`. `None` stands for `INV_INODE`. A NULL `new_inode` is
  `newInodeOk == false`, a failed `insert_inode_locked` is `insertOk == false`, and a NULL
  `iget_locked` is `Iget.IgetFailed`.
- Whether `vmalloc` succeeded at super.c:29 is the parameter `allocOk` of the mount functions.

## Model

| member | source | states |
|---|---|---|
| Nizifs.HeaderArithmetic | nizifs.h:4-35 | An entry has 9 direct slots and is exactly 64 bytes. The superblock is 128 words, exactly one 512-byte block. 2^9 is the block size, and a file holds at most 9 × 512 = 4608 bytes |
| Nizifs.FileEntry.Name | nizifs.h:8 | A terminated name is the bytes before its first NUL, at most 15 of them |
| Nizifs.FileEntry.IsLive | super.c:43 | A slot is live exactly when its first name byte is not NUL, that is, when its terminated name is non-empty |
| Nizifs.FileEntry.LiveBlocks | super.c:44-45 | The blocks a scan visits are the slots before the first zero slot: a prefix of the slots with no zero in it, followed by a zero slot or the end |
| Nizifs.EncodeSuperblock | nizifs.h:15-26 | The superblock image is exactly one 512-byte block, with the magic number in its first four bytes |
| Nizifs.DecodeSuperblock | nizifs.h:15-26 | Any 512 bytes decode to a superblock with 120 padding words, whose magic is the first word |
| Nizifs.SuperblockRoundTrip | real_io.c:41 | Copying an encoded superblock out of a block gives back every field |
| Nizifs.SuperblockBytesRoundTrip | nizifs.h:15-26 | Every 512-byte block is the image of the superblock it decodes to |
| Nizifs.EncodeEntry | nizifs.h:28-35 | An entry is 64 bytes: name at 0..16, size at 16, timestamp at 20, perms at 24, block slot j at 28+4j |
| Nizifs.DecodeEntry | nizifs.h:28-35 | Any 64 bytes decode to a well-formed entry whose name is the first 16 bytes |
| Nizifs.EntryRoundTrip | real_io.c:25 | Copying an encoded entry out of a block gives back every field |
| Nizifs.EntryBytesRoundTrip | nizifs.h:28-35 | Every 64 bytes are the image of the entry they decode to |
| Nizifs.EmptyEntryBytes | mkfs_nizifs.c:20 | The all-zero entry the formatter writes is 64 zero bytes, and 64 zero bytes read back as it |
| Nizifs.GapFreeLiveBlocks | super.c:44-45 | When no non-zero slot follows a zero slot, the blocks before the first zero are exactly the non-zero slots |
| NizifsDs.HeadersAgree | nizifs_ds.h:4-7 | The formatter's header defines the same magic, block size, entry size and slot count as the kernel header |
| Mkfs.FormatSuperblock | mkfs_nizifs.c:13-53 | The header fields carry the kernel's magic, block size and entry size. The table starts at block 1 and is partition_size / 10 blocks, rounded down. Data starts right after the table. Without wrap-around the table holds 8 entries per block. The padding is zero |
| Mkfs.FormatLayout | mkfs_nizifs.c:10-53 | The table size is a tenth of the partition, and the table fills its blocks with 8 entries per block. Data starts right after the table and within the partition |
| Mkfs.FormatExample | mkfs_nizifs.c:49-53 | A 1000-block partition gets a 100-block table of 800 entries, with data from block 101 |
| Mkfs.WriteAt | mkfs_nizifs.c:36-37 | A write past the end of a file leaves the bytes between the old end and the write reading as zero |
| Mkfs.ClearedTable | mkfs_nizifs.c:27-31 | The cleared table is entry_count × 64 zero bytes |
| Mkfs.Image | mkfs_nizifs.c:22-38 | The file is the superblock and entry_count zeroed entries, extended if need be to end at byte partition_size × block_size − 1 (32-bit), which holds a zero. Every other byte past the superblock is zero |
| Mkfs.ImageLayout | mkfs_nizifs.c:22-38 | The backing file is partition_size × 512 bytes: the superblock, then zeros only |
| Mkfs.Format | mkfs_nizifs.c:44-67 | Exit 1 without an image on a wrong argument count, 2 when the file cannot be created, else 0 with the formatted image |
| RealIo.AbsAddr | real_io.c:17 | The absolute address is block × block_size + offset, when it fits 32 bits |
| RealIo.BlockOfAddress | real_io.c:18-19 | The device block and offset recombine to the absolute address |
| RealIo.SameDeviceBlock | real_io.c:18-25 | A read that fits its device block finds byte k at offset + k of that block |
| RealIo.ReadFrom | real_io.c:10-28 | -EINVAL exactly when offset + len passes the device block, else -EIO exactly when the block is unreadable. It succeeds exactly when neither holds, with the len bytes at the address |
| RealIo.EntryAddr | real_io.c:30-33 | Entry ino starts at entry_table_block_start × block_size + 64 × ino, with no bound check on ino |
| RealIo.ReadEntry | real_io.c:30-33 | The same two error conditions for the 64 bytes at the entry's address, and success exactly when neither holds. On success it gives the entry whose image those bytes are |
| RealIo.ReadSb | real_io.c:35-44 | -EIO exactly when device block 0 is unreadable, else the superblock whose image is its first 512 bytes |
| RealIo.EntryAddrAligned | real_io.c:30-33 | With a block size that is a multiple of 64, every entry address is a multiple of 64, even after wrap-around |
| RealIo.EntryReadNeverInvalid | real_io.c:20-21 | With block sizes that are multiples of 64, an entry read never returns -EINVAL, and it succeeds exactly when its block is readable |
| RealIo.DeviceOf | real_io.c:22 | A backing file seen as a device has exactly its whole blocks, each holding its slice of the file |
| RealIo.DeviceOfBytes | real_io.c:25 | Every byte of the file is readable at its own address, and nothing past the end is |
| Super.MountSafe | super.c:15-46 | The inputs mount is defined on: a readable device with blocks of at least 512 bytes. When the magic matches and vmalloc succeeded, partition_size must not exceed INT_MAX (the signed index of the marking loops), data_block_start and every block listed by an entry the scan reaches must fit in the map, and the scan must not read entries 0 .. INT_MAX successfully when entry_count is larger |
| Super.SignedIndexInRange | super.c:15-38 | Whenever the map is written, the signed index stays within int: partition_size and data_block_start are at most INT_MAX, and a larger entry_count has a failing read at or before entry INT_MAX |
| Super.AllocFailureAnyLayout | super.c:29-31 | With the magic matched and vmalloc failing, any layout is admitted, and both the corrected and the as-written routine return -ENOMEM |
| Super.FirstReadFailureFits | super.c:38-42 | When entry 0 cannot be read, a layout with data_block_start <= partition_size <= INT_MAX fits whatever the later entries list, since the scan never reads them |
| Super.ReservedMap | super.c:32-35 | A fresh map has partition_size flags, set exactly below data_block_start |
| Super.MarkSlots | super.c:44-47 | The inner loop sets a flag exactly for the slots before the first zero slot |
| Super.Scan | super.c:37-48 | Completes iff every entry read succeeds. A failure reports the first failing entry and its code. Success adds exactly the blocks some live entry lists |
| Super.ReachedFitStep | super.c:38-43 | After a successful read of entry i, entry i fits, and every later entry the scan reaches fits |
| Super.FirstFailureUnique | super.c:38-42 | Only one entry is both unreadable and preceded by readable entries: the one the scan stops at |
| Super.ListedFromStep | super.c:38-43 | A block is listed from entry i on iff entry i lists it or a later entry does |
| Super.InitSteps | super.c:15-54 | The superblock read error is returned unchanged, a wrong magic gives -EINVAL, a failed allocation -ENOMEM, and a failing entry read stops the scan |
| Super.Mount | super.c:15-54 | Succeeds iff the superblock is readable with the right magic, memory is available and every entry reads. Then used[b] holds iff b < data_block_start or a live entry lists b before its first zero slot. The superblock read's error is passed on, a wrong magic gives -EINVAL, a failed allocation -ENOMEM, and a failing entry read gives the error of the first entry that fails. Every error is negative |
| Super.MountAsWritten | super.c:39-41 | As written, a failing entry read returns 1; every other outcome equals the corrected routine's |
| Super.AsWrittenMisreportsScanFailure | super.c:39-41 | Whenever an entry read fails after the magic check, the code as written returns 1 where the corrected routine returns a negative error |
| Formatted.FormattedBytes | mkfs_nizifs.c:22-38 | Through any fitting device, the formatted image reads as the superblock followed by zeros |
| Formatted.FormattedSuperblockRead | super.c:20-26 | A formatted partition's superblock reads back field for field and carries the magic mount checks |
| Formatted.FormattedEntryAddr | real_io.c:30-33 | Entry ino of a formatted table starts at byte 512 + 64 × ino, inside the image |
| Formatted.ZeroBytesReadEmpty | real_io.c:30-33 | A successful entry read over zero bytes yields the empty entry |
| Formatted.FormattedEntryRead | real_io.c:30-33 | Every slot of a formatted table reads back as the empty entry |
| Formatted.FreshMount | super.c:28-48 | A freshly formatted partition mounts, with exactly blocks [0, data_block_start) in use |
| Formatted.LargePartitionRefused | super.c:15-35 | A superblock with the magic and partition_size 0x8000_0010 is read back, is outside mount's domain once vmalloc succeeds, and gives -ENOMEM when it fails |
| Formatted.MountEmptyTable | super.c:28-48 | On any device whose table reads in full and lists no block, mount succeeds and marks exactly blocks [0, data_block_start) used |
| Formatted.EntryReadMissing | real_io.c:22-23 | An aligned entry read whose device block is missing fails with -EIO |
| Formatted.OnlySuperblockEntryRead | real_io.c:22-23 | On a device holding only block 0, every entry of a formatted table fails with -EIO |
| Formatted.TruncatedSuperblockRead | real_io.c:35-44 | The device holding only a formatted superblock reads it back unchanged |
| Formatted.PrecedenceCounterexample | super.c:39-41 | On that device mount passes the magic check, and then the code as written returns 1 where -EIO is due |
| Inode.Perms | inode.c:29-32 | perms is in 0..7, with 4 iff S_IRUSR, 2 iff S_IWUSR and 1 iff S_IXUSR |
| Inode.OwnerMode | inode.c:30-32 | The owner bits a perms value stands for set no other mode bit |
| Inode.PermsIgnoresOtherBits | inode.c:30-32 | Two modes give the same perms iff they have the same owner bits |
| Inode.PermsOwnerModeInverse | inode.c:30-32 | perms and the owner bits of the mode determine each other |
| Inode.Strncpy | inode.c:26 | The copy has n bytes: the source up to its first NUL, then NULs |
| Inode.NameBuffer | inode.c:15-27 | The buffer has len + 1 bytes: the name up to its first NUL, then NULs, with a NUL at index len |
| Inode.NameBufferReadsBack | inode.c:26-27 | The buffer read as a C string is the name up to its first NUL |
| Inode.NameBufferPlain | inode.c:26-27 | A name without NUL bytes is copied whole and terminated |
| Inode.Create | inode.c:14-62 | -ENOSPC on INV_INODE. The file is removed again with -ENOMEM or -EIO when the VFS inode cannot be made or inserted. Otherwise 0, and the inode gets S_IFREG and the mode |
| Inode.CreatePermsAgree | inode.c:30-46 | The mode the new inode gets yields the perms that were stored |
| Inode.Lookup | inode.c:70-106 | -ENOENT under a non-root parent, before any name is built. Otherwise it searches under the dentry's name buffer. A negative dentry when the name is absent, -EACCES when the inode cache fails. A fresh inode is a regular file with all nine rwx bits |
| Inode.LookupIgnoresStoredPerms | inode.c:89-97 | A fresh inode grants owner rwx whatever perms the entry stores; entries differing only in perms look up the same |
| Inode.Unlink | inode.c:112-125 | The name it removes is the name buffer of the dentry. -EINVAL exactly when the storage remove reports INV_INODE. Otherwise 0, and the link count is dropped |
| Inode.SameNameKey | inode.c:81-83 | Lookup in the root searches for, and unlink removes, the same name create stored the file under. Create's cleanup removes that name too. It reads back as the dentry name up to its first NUL |

## Left out

- VFS and module glue are not modelled: `nizifs_fill_super`, mount/get_sb, the
  `file_system_type`, and module init/exit (super.c:59 on). They only wire kernel objects
  together.
- file.c is not part of this model. Its directory iteration is a stub, and the rest is an
  operations table.
- The storage routines are parameters, not functions. These are `nizifs_create_file`,
  `nizifs_lookup_file` and `nizifs_remove_file`, plus the allocator, update and block mapping,
  and none of them has a body in the files modelled. `INV_INODE` is not defined there either,
  so `None` stands for it.
- The dentry and inode-cache calls whose result is not used are not modelled as calls:
  `d_add`, `d_splice_alias`, `d_instantiate`, `unlock_new_inode`, `make_bad_inode` and `iput`.
  Their effect appears only as the shape of the result. A `Bound` lookup is the dentry
  `d_add` binds, `Absent` is the negative dentry `d_splice_alias` leaves, and a created inode
  is the one `d_instantiate` attaches. Releasing the inode on the -EIO path leaves no trace.
  The operation tables and `a_ops`/`i_fop` assignments are left out.
- Concurrency is left out: the spinlock initialised at super.c:52.
- Real I/O and logging are left out: `creat`, `write`, `lseek`, `close`, `printf`, `perror` and
  `printk`. The formatter's output is the byte sequence it leaves in the file.
- `atoi` is left out: the partition size is the value it produced.
- Buffer-head caching is left out (`sb_bread`/`brelse`).
- `sb_bread` counts blocks in units of `s_blocksize`, while the translation divides by
  `bd_block_size`. The model uses a single device block size for both.
- Mkfs.FormatLayout: `partition_size * 0.10` is computed in double precision, and the model
  takes it as `partition_size / 10`. The two agree on every 32-bit value, because 0.1 rounds
  upward and no product lands within rounding distance of the next integer.
- Mkfs.FormatLayout: the layout facts need `1 <= partition_size` and
  `partition_size * 512 <= 2^32`. `FormatSuperblock` itself wraps on larger sizes exactly as the
  32-bit code does.
- RealIo.ReadFrom: requires `len <= 2^31`, and `Device.Valid` bounds the device block size by
  2^31. Together these mean `offset + len` never wraps at real_io.c:20, where the 32-bit sum
  would. Its only caller, real_io.c:32, passes 64.
- RealIo.ReadSb: requires a device block size of at least 512. `memcpy` of 512 bytes out of a
  smaller block reads past the buffer, which is undefined.
- Super.Mount: requires `MountSafe`. The device must be valid and its blocks at least 512 bytes.
  Once the magic matches and `vmalloc` has succeeded, four things must hold, because
  `init_nizifs_info` writes the map and counts with a signed `int i` without checking them,
  which is undefined behaviour outside these bounds:
  - `partition_size <= INT_MAX`, so the marking loops at super.c:32-35 do not overflow `i`;
  - `data_block_start <= partition_size`;
  - when `entry_count > INT_MAX`, some entry up to INT_MAX fails to read, so the scan at
    super.c:38 stops before `i++` overflows;
  - every block listed by an entry the scan reaches is below `partition_size` (super.c:46),
    where an entry is reached when all entries before it read successfully.
  Entries after the first failing read are not constrained.
- Nizifs.DecodeEntry: the name bytes are kept as bytes. No character set is assumed.

## Findings

| source | as written | input that shows it | evidently intended | confidence | as-written member | corrected member |
|---|---|---|---|---|---|---|
| super.c:39 | `retval = read_entry_from_nizifs(info, i, &fe) < 0` assigns the comparison, so a failed entry read makes `init_nizifs_info` return 1 | a device whose block 0 holds a valid superblock for 1000 blocks and which has no other readable block: entry 0 fails with -EIO | return the read's own negative error (-EIO here), as the superblock read at super.c:20 does | not executed | Super.MountAsWritten, Formatted.PrecedenceCounterexample | Super.Mount |

=== FILE: arith.dfy ===
/** Facts about multiplication, division and remainder by a variable divisor, used by the
    address translation and the device-image proofs. Each lemma takes one nonlinear step. */
module Arith {

  lemma MulMonotone(a: nat, b: nat, c: nat)
    requires a <= b
    ensures a * c <= b * c
  {
  }

  lemma MulDistribSub(a: int, b: int, d: int)
    ensures a * d - b * d == (a - b) * d
  {
  }

  lemma MulNegate(k: int, d: int)
    ensures (-k) * d == -(k * d)
  {
  }

  /** The only multiple of `d` strictly between `-d` and `d` is zero. */
  lemma SmallMultipleIsZero(k: int, d: int)
    requires 0 < d && -d < k * d < d
    ensures k == 0
  {
    if k >= 1 {
      MulMonotone(1, k, d);
    } else if k <= -1 {
      MulNegate(k, d);
      MulMonotone(1, -k, d);
    }
  }

  /** `x == q * d + r` with `0 <= r < d` determines the quotient and the remainder. */
  lemma DivModUnique(x: nat, d: nat, q: nat, r: nat)
    requires 0 < d && r < d && x == q * d + r
    ensures x / d == q && x % d == r
  {
    var q', r' := x / d, x % d;
    MulDistribSub(q, q', d);
    SmallMultipleIsZero(q - q', d);
  }

  /** If `a` and `d` are multiples of `u`, so is `a % d`, and it leaves room for `u` more
      bytes below `d`. */
  lemma ModOfMultiples(a: nat, d: nat, u: nat)
    requires 0 < u && 0 < d && a % u == 0 && d % u == 0
    ensures (a % d) % u == 0 && a % d + u <= d
  {
    var q, r := a / d, a % d;
    var c, m := d / u, a / u;
    MulAssoc(q, c, u);
    var s := m - q * c;
    MulDistribSub(m, q * c, u);
    assert r == s * u;
    NonNegFactor(s, u);
    DivModUnique(r, u, s, 0);
    MulDistribSub(c, s, u);
    PositiveFactor(c - s, u);
    MulMonotone(1, c - s, u);
  }

  lemma MulAssoc(a: int, b: int, c: int)
    ensures a * (b * c) == (a * b) * c
  {
  }

  lemma NonNegFactor(s: int, u: nat)
    requires 0 < u && s * u >= 0
    ensures s >= 0
  {
    if s < 0 {
      MulNegate(s, u);
      MulMonotone(1, -s, u);
    }
  }

  lemma PositiveFactor(s: int, u: nat)
    requires 0 < u && s * u > 0
    ensures s >= 1
  {
    if s < 1 {
      NonNegFactor(s, u);
    }
  }
}

=== FILE: bytes.dfy ===
/** Bytes, 32-bit unsigned words and the host (little-endian) byte order in which
    the C structs are copied to and from disk with memcpy/write. */
module Bytes {

  /** One byte of a record or of the device. */
  type byte = x: int | 0 <= x < 256

  const U32_LIMIT: nat := 0x1_0000_0000

  /** The C `unsigned int` (uint4_t / byte4_t). */
  type u32 = x: int | 0 <= x < 0x1_0000_0000

  /** Unsigned 32-bit wrap-around of a mathematical result, as C performs it. */
  function Wrap(x: int): (r: u32)
    ensures 0 <= x < U32_LIMIT ==> r == x
    ensures (x - r) % U32_LIMIT == 0
  {
    x % U32_LIMIT
  }

  function Zeros(n: nat): (r: seq<byte>)
    ensures |r| == n
    ensures forall k | 0 <= k < n :: r[k] == 0
  {
    seq(n, _ => 0)
  }

  /** Zero runs join into one zero run. */
  lemma ZerosConcat(m: nat, n: nat)
    ensures Zeros(m) + Zeros(n) == Zeros(m + n)
  {
    assert forall k | 0 <= k < m + n :: (Zeros(m) + Zeros(n))[k] == 0;
  }

  function Pow256(n: nat): (r: nat)
    ensures r >= 1
  {
    if n == 0 then 1 else 256 * Pow256(n - 1)
  }

  /** The `n` low-order bytes of `x`, least significant first. */
  function EncodeLE(x: nat, n: nat): (r: seq<byte>)
    ensures |r| == n
  {
    if n == 0 then [] else [x % 256] + EncodeLE(x / 256, n - 1)
  }

  /** The number whose little-endian spelling is `b`. */
  function DecodeLE(b: seq<byte>): (r: nat)
    ensures r < Pow256(|b|)
  {
    if |b| == 0 then 0 else b[0] + 256 * DecodeLE(b[1..])
  }

  lemma {:induction false} DecodeEncodeLE(x: nat, n: nat)
    requires x < Pow256(n)
    ensures DecodeLE(EncodeLE(x, n)) == x
  {
    if n > 0 {
      var e := EncodeLE(x, n);
      assert e[1..] == EncodeLE(x / 256, n - 1);
      assert x / 256 < Pow256(n - 1);
      DecodeEncodeLE(x / 256, n - 1);
      assert e[0] == x % 256;
      assert DecodeLE(e) == x % 256 + 256 * (x / 256);
    }
  }

  lemma {:induction false} EncodeDecodeLE(b: seq<byte>)
    ensures EncodeLE(DecodeLE(b), |b|) == b
  {
    if |b| > 0 {
      var d := DecodeLE(b[1..]);
      DivModStep(b[0], d);
      EncodeDecodeLE(b[1..]);
    }
  }

  lemma DivModStep(lo: nat, hi: nat)
    requires lo < 256
    ensures (lo + 256 * hi) % 256 == lo
    ensures (lo + 256 * hi) / 256 == hi
  {
  }

  lemma Pow256Four()
    ensures Pow256(4) == U32_LIMIT
  {
  }

  /** Host (little-endian) image of one word. */
  function EncodeU32(x: u32): (r: seq<byte>)
    ensures |r| == 4
  {
    EncodeLE(x, 4)
  }

  function DecodeU32(b: seq<byte>): (r: u32)
    requires |b| == 4
  {
    Pow256Four();
    DecodeLE(b)
  }

  lemma DecodeEncodeU32(x: u32)
    ensures DecodeU32(EncodeU32(x)) == x
  {
    Pow256Four();
    DecodeEncodeLE(x, 4);
  }

  /** Four bytes are determined by the word they spell. */
  lemma EncodeDecodeU32(b: seq<byte>)
    requires |b| == 4
    ensures EncodeU32(DecodeU32(b)) == b
  {
    EncodeDecodeLE(b);
  }

  lemma EncodeZeroU32()
    ensures EncodeU32(0) == Zeros(4)
  {
  }

  /** Words laid one after the other, each in host byte order. */
  function EncodeWords(ws: seq<u32>): (r: seq<byte>)
    ensures |r| == 4 * |ws|
    ensures forall i | 0 <= i < |ws| :: r[4 * i .. 4 * i + 4] == EncodeU32(ws[i])
  {
    if |ws| == 0 then []
    else
      var rest := EncodeWords(ws[1..]);
      var r := EncodeU32(ws[0]) + rest;
      assert forall i | 1 <= i < |ws| :: r[4 * i .. 4 * i + 4] == rest[4 * (i - 1) .. 4 * (i - 1) + 4];
      r
  }

  function DecodeWords(bs: seq<byte>): (r: seq<u32>)
    requires |bs| % 4 == 0
    ensures |r| == |bs| / 4 && 4 * |r| == |bs|
    ensures forall i | 0 <= i < |r| :: r[i] == DecodeU32(bs[4 * i .. 4 * i + 4])
  {
    if |bs| == 0 then []
    else
      var rest := DecodeWords(bs[4..]);
      var r := [DecodeU32(bs[..4])] + rest;
      assert forall i | 1 <= i < |r| :: bs[4 * i .. 4 * i + 4] == bs[4..][4 * (i - 1) .. 4 * (i - 1) + 4];
      r
  }

  /** Byte `k` of a word sequence is byte `k % 4` of word `k / 4`. */
  lemma WordSlot(k: nat, n: nat)
    requires k < 4 * n
    ensures k / 4 < n && k % 4 < 4 && k == 4 * (k / 4) + k % 4
  {
  }

  /** Byte `j` of word `i` sits at `4 * i + j` of the encoding. */
  lemma WordByte(ws: seq<u32>, i: nat, j: nat)
    requires i < |ws| && j < 4
    ensures 4 * i + j < |EncodeWords(ws)| && EncodeWords(ws)[4 * i + j] == EncodeU32(ws[i])[j]
  {
    var e := EncodeWords(ws);
    var w := e[4 * i .. 4 * i + 4];
    assert w == EncodeU32(ws[i]);
    assert e[4 * i + j] == w[j];
  }

  lemma {:induction false} DecodeEncodeWords(ws: seq<u32>)
    ensures DecodeWords(EncodeWords(ws)) == ws
  {
    var d := DecodeWords(EncodeWords(ws));
    forall i | 0 <= i < |ws|
      ensures d[i] == ws[i]
    {
      DecodeEncodeU32(ws[i]);
    }
  }

  lemma {:induction false} EncodeDecodeWords(bs: seq<byte>)
    requires |bs| % 4 == 0
    ensures EncodeWords(DecodeWords(bs)) == bs
  {
    var e := EncodeWords(DecodeWords(bs));
    assert |e| == |bs|;
    forall k | 0 <= k < |bs|
      ensures e[k] == bs[k]
    {
      DecodedByteReencodes(bs, k);
    }
  }

  /** One byte of the round trip: byte `k` sits at offset `k % 4` of word `k / 4`. */
  lemma DecodedByteReencodes(bs: seq<byte>, k: nat)
    requires |bs| % 4 == 0 && k < |bs|
    ensures k < |EncodeWords(DecodeWords(bs))| && EncodeWords(DecodeWords(bs))[k] == bs[k]
  {
    var ws := DecodeWords(bs);
    WordSlot(k, |ws|);
    DecodedWordByte(bs, k / 4, k % 4);
  }

  /** Byte `j` of word `i` survives decoding and re-encoding. */
  lemma DecodedWordByte(bs: seq<byte>, i: nat, j: nat)
    requires |bs| % 4 == 0 && 4 * i + 4 <= |bs| && j < 4
    ensures 4 * i + j < |EncodeWords(DecodeWords(bs))|
    ensures EncodeWords(DecodeWords(bs))[4 * i + j] == bs[4 * i + j]
  {
    var ws := DecodeWords(bs);
    var word := bs[4 * i .. 4 * i + 4];
    assert ws[i] == DecodeU32(word);
    EncodeDecodeU32(word);
    WordByte(ws, i, j);
    assert word[j] == bs[4 * i + j];
  }

  /** The bytes of an all-zero word sequence are all zero. */
  lemma {:induction false} EncodeZeroWords(ws: seq<u32>)
    requires forall i | 0 <= i < |ws| :: ws[i] == 0
    ensures EncodeWords(ws) == Zeros(4 * |ws|)
  {
    var e := EncodeWords(ws);
    forall k | 0 <= k < |e|
      ensures e[k] == 0
    {
      WordSlot(k, |ws|);
      WordByte(ws, k / 4, k % 4);
      EncodeZeroU32();
    }
  }
}

=== FILE: errno.dfy ===
/** Linux error numbers used by the filesystem, and the result types that carry them.
    Kernel functions return a negative errno on failure; the model keeps that sign. */
module Errno {

  const ENOENT: int := 2
  const EIO: int := 5
  const ENOMEM: int := 12
  const EACCES: int := 13
  const EINVAL: int := 22
  const ENOSPC: int := 28

  datatype Option<+T> = None | Some(value: T)

  /** Either a value or the integer status code a C routine returned instead. */
  datatype Result<+T> = Ok(value: T) | Err(code: int)
}

=== FILE: formatted.dfy ===
/** What the formatter and the kernel agree on: a freshly formatted partition, read through a
    block device, passes the magic check and mounts with exactly the reserved blocks in use. */
module Formatted {
  import opened Bytes
  import opened Errno
  import opened Nizifs
  import opened RealIo
  import opened Super
  import opened Mkfs
  import Ds = NizifsDs
  import Arith

  /** Device block sizes a formatted image can be read with: at least one nizifs block, a
      multiple of the entry size, and dividing the image into whole device blocks. */
  predicate DeviceFits(partitionSize: u32, bs: nat) {
    && BLOCK_SIZE <= bs <= MAX_DEVICE_BLOCK
    && bs % ENTRY_SIZE == 0
    && (partitionSize * BLOCK_SIZE) % bs == 0
  }

  /** The backing file `main` writes, read as a block device. */
  function FormattedDevice(partitionSize: u32, bs: nat): (dev: Device)
    requires Formattable(partitionSize) && DeviceFits(partitionSize, bs)
    ensures dev.Valid() && dev.blockSize == bs
  {
    DeviceOf(Image(FormatSuperblock(partitionSize)), bs)
  }

  lemma FormattedBytes(partitionSize: u32, bs: nat, a: nat)
    requires Formattable(partitionSize) && DeviceFits(partitionSize, bs)
    ensures a < partitionSize * BLOCK_SIZE ==> a / bs in FormattedDevice(partitionSize, bs).blocks
    ensures a < BLOCK_SIZE ==>
      FormattedDevice(partitionSize, bs).ByteAt(a) == Some(EncodeSuperblock(FormatSuperblock(partitionSize))[a])
    ensures BLOCK_SIZE <= a < partitionSize * BLOCK_SIZE ==> FormattedDevice(partitionSize, bs).ByteAt(a) == Some(0)
  {
    var img := Image(FormatSuperblock(partitionSize));
    ImageLayout(partitionSize);
    DeviceOfBytes(img, bs, a);
    if a < BLOCK_SIZE {
      assert img[a] == img[..BLOCK_SIZE][a];
    }
  }

  /** A device whose first 512 bytes are readable and hold a superblock's image returns that
      superblock from the superblock read. */
  lemma SuperblockReadBack(dev: Device, sb: Superblock)
    requires dev.Valid() && dev.blockSize >= BLOCK_SIZE && sb.WellFormed()
    requires forall k | 0 <= k < BLOCK_SIZE :: dev.ByteAt(k) == Some(EncodeSuperblock(sb)[k])
    ensures ReadSb(dev) == Ok(sb)
  {
    assert dev.ByteAt(0).Some? && 0 / dev.blockSize == 0;
    var r := ReadSb(dev);
    assert r.Ok?;
    forall k | 0 <= k < BLOCK_SIZE
      ensures EncodeSuperblock(r.value)[k] == EncodeSuperblock(sb)[k]
    {
      assert dev.ByteAt(k) == Some(EncodeSuperblock(sb)[k]);
    }
    assert EncodeSuperblock(r.value) == EncodeSuperblock(sb);
    SuperblockRoundTrip(r.value);
    SuperblockRoundTrip(sb);
  }

  /** The formatted superblock reads back field for field, so the mount-time magic check
      passes: both headers define the same magic number. */
  lemma FormattedSuperblockRead(partitionSize: u32, bs: nat)
    requires Formattable(partitionSize) && DeviceFits(partitionSize, bs)
    ensures ReadSb(FormattedDevice(partitionSize, bs)) == Ok(FormatSuperblock(partitionSize))
    ensures FormatSuperblock(partitionSize).fsType == Nizifs.FS_TYPE
  {
    var dev := FormattedDevice(partitionSize, bs);
    var sb := FormatSuperblock(partitionSize);
    forall k | 0 <= k < BLOCK_SIZE
      ensures dev.ByteAt(k) == Some(EncodeSuperblock(sb)[k])
    {
      FormattedBytes(partitionSize, bs, k);
    }
    SuperblockReadBack(dev, sb);
    Ds.HeadersAgree();
  }

  /** Entry `ino` of a formatted table sits right after the superblock, without wrap-around,
      and inside the image. */
  lemma FormattedEntryAddr(partitionSize: u32, ino: nat)
    requires Formattable(partitionSize)
    requires ino < FormatSuperblock(partitionSize).entryCount
    ensures EntryAddr(FormatSuperblock(partitionSize), ino) == BLOCK_SIZE + ino * ENTRY_BYTES
    ensures BLOCK_SIZE + ino * ENTRY_BYTES + ENTRY_BYTES <= partitionSize * BLOCK_SIZE
    ensures BLOCK_SIZE <= EntryAddr(FormatSuperblock(partitionSize), ino)
    ensures EntryAddr(FormatSuperblock(partitionSize), ino) + ENTRY_BYTES <= partitionSize * BLOCK_SIZE
  {
    var sb := FormatSuperblock(partitionSize);
    FormatLayout(partitionSize);
    Arith.MulMonotone(ino + 1, sb.entryCount, ENTRY_BYTES);
    Arith.MulMonotone(sb.dataBlockStart, partitionSize, BLOCK_SIZE);
    assert (ino + 1) * ENTRY_BYTES == ino * ENTRY_BYTES + ENTRY_BYTES;
  }

  /** A successful entry read over 64 zero bytes yields the empty entry. */
  lemma ZeroBytesReadEmpty(dev: Device, sb: Superblock, ino: nat)
    requires dev.Valid() && ReadEntry(dev, sb, ino).Ok?
    requires forall j | EntryAddr(sb, ino) <= j < EntryAddr(sb, ino) + ENTRY_BYTES :: dev.ByteAt(j) == Some(0)
    ensures ReadEntry(dev, sb, ino) == Ok(EmptyEntry())
  {
    var e := ReadEntry(dev, sb, ino).value;
    var a := EntryAddr(sb, ino);
    forall k | 0 <= k < ENTRY_BYTES
      ensures EncodeEntry(e)[k] == Zeros(ENTRY_BYTES)[k]
    {
      assert dev.ByteAt(a + k) == Some(EncodeEntry(e)[k]);
    }
    assert EncodeEntry(e) == Zeros(ENTRY_BYTES);
    EntryRoundTrip(e);
    EmptyEntryBytes();
  }

  /** With 64-aligned block sizes, an entry read whose 64 bytes are all readable zeros yields
      the empty entry. */
  lemma ZeroRegionEntryRead(dev: Device, sb: Superblock, ino: nat)
    requires dev.Valid() && dev.blockSize % 64 == 0 && sb.blockSize % 64 == 0
    requires EntryAddr(sb, ino) / dev.blockSize in dev.blocks
    requires forall j | EntryAddr(sb, ino) <= j < EntryAddr(sb, ino) + ENTRY_BYTES :: dev.ByteAt(j) == Some(0)
    ensures ReadEntry(dev, sb, ino) == Ok(EmptyEntry())
  {
    EntryReadNeverInvalid(dev, sb, ino);
    ZeroBytesReadEmpty(dev, sb, ino);
  }

  /** Both block sizes a formatted partition is read with are multiples of the entry size. */
  lemma FormattedAligned(partitionSize: u32, bs: nat)
    requires Formattable(partitionSize) && DeviceFits(partitionSize, bs)
    ensures FormatSuperblock(partitionSize).blockSize % 64 == 0
    ensures FormattedDevice(partitionSize, bs).blockSize % 64 == 0
  {
    assert FormatSuperblock(partitionSize).blockSize == 512;
    assert FormattedDevice(partitionSize, bs).blockSize == bs && bs % 64 == 0;
  }

  /** Every slot of a formatted table reads back as the empty entry. */
  lemma FormattedEntryRead(partitionSize: u32, bs: nat, ino: nat)
    requires Formattable(partitionSize) && DeviceFits(partitionSize, bs)
    requires ino < FormatSuperblock(partitionSize).entryCount
    ensures ReadEntry(FormattedDevice(partitionSize, bs), FormatSuperblock(partitionSize), ino) == Ok(EmptyEntry())
  {
    var dev := FormattedDevice(partitionSize, bs);
    var sb := FormatSuperblock(partitionSize);
    FormattedEntryAddr(partitionSize, ino);
    var a := EntryAddr(sb, ino);
    assert BLOCK_SIZE <= a && a + ENTRY_BYTES <= partitionSize * BLOCK_SIZE;
    FormattedAligned(partitionSize, bs);
    FormattedBytes(partitionSize, bs, a);
    assert a / dev.blockSize in dev.blocks;
    forall j | a <= j < a + ENTRY_BYTES
      ensures dev.ByteAt(j) == Some(0)
    {
      FormattedBytes(partitionSize, bs, j);
    }
    ZeroRegionEntryRead(dev, sb, ino);
  }

  /** Mounting a freshly formatted partition succeeds, and the used blocks are exactly the
      superblock and the entry table: [0, data_block_start). */
  lemma FreshMount(partitionSize: u32, bs: nat)
    requires Formattable(partitionSize) && DeviceFits(partitionSize, bs)
    ensures MountSafe(FormattedDevice(partitionSize, bs), true)
    ensures Mount(FormattedDevice(partitionSize, bs), true)
      == Ok(Info(FormatSuperblock(partitionSize), seq(partitionSize, b => b < partitionSize / 10 + 1)))
  {
    var dev := FormattedDevice(partitionSize, bs);
    var sb := FormatSuperblock(partitionSize);
    FormatLayout(partitionSize);
    FormattedSuperblockRead(partitionSize, bs);
    FormattedTableEmpty(partitionSize, bs);
    MountEmptyTable(dev, sb);
    assert sb.dataBlockStart == partitionSize / 10 + 1;
  }

  /** Mounting a device whose whole table reads and lists no block succeeds, and marks used
      exactly the reserved blocks below `data_block_start`. */
  lemma MountEmptyTable(dev: Device, sb: Superblock)
    requires dev.Valid() && dev.blockSize >= BLOCK_SIZE
    requires ReadSb(dev) == Ok(sb) && sb.fsType == FS_TYPE
    requires LayoutFits(dev, sb) && TableReads(dev, sb, sb.entryCount)
    requires forall b :: !Listed(dev, sb, b)
    ensures MountSafe(dev, true)
    ensures Mount(dev, true) == Ok(Info(sb, seq(sb.partitionSize, b => b < sb.dataBlockStart)))
  {
    var r := Mount(dev, true);
    assert r.Ok?;
    var used := r.value.used;
    forall b | 0 <= b < sb.partitionSize
      ensures used[b] == (b < sb.dataBlockStart)
    {
      assert !Listed(dev, sb, b);
    }
    assert used == seq(sb.partitionSize, b => b < sb.dataBlockStart);
  }

  /** Every entry of a freshly formatted table reads as the empty entry, so the layout fits, the
      whole table reads, and no block is listed. */
  lemma FormattedTableEmpty(partitionSize: u32, bs: nat)
    requires Formattable(partitionSize) && DeviceFits(partitionSize, bs)
    ensures var dev, sb := FormattedDevice(partitionSize, bs), FormatSuperblock(partitionSize);
      && LayoutFits(dev, sb)
      && TableReads(dev, sb, sb.entryCount)
      && forall b :: !Listed(dev, sb, b)
  {
    var dev := FormattedDevice(partitionSize, bs);
    var sb := FormatSuperblock(partitionSize);
    FormatLayout(partitionSize);
    forall ino | 0 <= ino < sb.entryCount
      ensures ReadEntry(dev, sb, ino) == Ok(EmptyEntry())
    {
      FormattedEntryRead(partitionSize, bs, ino);
    }
    assert !EmptyEntry().IsLive();
  }

  /** A device holding only the superblock of a formatted 1000-block partition: block 0 and
      nothing else can be read. */
  function TruncatedDevice(): (dev: Device)
    ensures dev.Valid() && dev.blockSize == BLOCK_SIZE
    ensures forall b: nat :: b in dev.blocks <==> b == 0
  {
    Device(BLOCK_SIZE, map[0 := EncodeSuperblock(FormatSuperblock(1000))])
  }

  lemma TruncatedSuperblockRead()
    ensures ReadSb(TruncatedDevice()) == Ok(FormatSuperblock(1000))
  {
    var dev := TruncatedDevice();
    var sb := FormatSuperblock(1000);
    forall k | 0 <= k < BLOCK_SIZE
      ensures dev.ByteAt(k) == Some(EncodeSuperblock(sb)[k])
    {
      Arith.DivModUnique(k, BLOCK_SIZE, 0, k);
    }
    SuperblockReadBack(dev, sb);
  }

  /** A superblock with the magic whose partition is larger than the signed loop index can
      count: 0x8000_0010 blocks, data from block 0x8000_0008, an empty table. */
  function LargeSuperblock(): (sb: Superblock)
    ensures sb.WellFormed() && sb.fsType == FS_TYPE && sb.partitionSize > INT_MAX
  {
    Superblock(FS_TYPE, BLOCK_SIZE, 0x8000_0010, ENTRY_SIZE, 0, 1, 0, 0x8000_0008,
      seq(RESERVED_WORDS, _ => 0))
  }

  /** A device holding only that superblock. */
  function LargePartitionDevice(): (dev: Device)
    ensures dev.Valid() && dev.blockSize == BLOCK_SIZE
    ensures forall b: nat :: b in dev.blocks <==> b == 0
  {
    Device(BLOCK_SIZE, map[0 := EncodeSuperblock(LargeSuperblock())])
  }

  /** The marking loops would overflow the signed index on this device, so mount is not
      defined on it once `vmalloc` succeeds; with a failed allocation it is, and gives -ENOMEM. */
  lemma LargePartitionRefused()
    ensures ReadSb(LargePartitionDevice()) == Ok(LargeSuperblock())
    ensures !MountSafe(LargePartitionDevice(), true)
    ensures MountSafe(LargePartitionDevice(), false)
    ensures Mount(LargePartitionDevice(), false) == Err(-ENOMEM)
  {
    var dev := LargePartitionDevice();
    var sb := LargeSuperblock();
    forall k | 0 <= k < BLOCK_SIZE
      ensures dev.ByteAt(k) == Some(EncodeSuperblock(sb)[k])
    {
      Arith.DivModUnique(k, BLOCK_SIZE, 0, k);
    }
    SuperblockReadBack(dev, sb);
    AllocFailureAnyLayout(dev);
  }

  /** An aligned entry read whose device block is missing fails with -EIO. */
  lemma EntryReadMissing(dev: Device, sb: Superblock, ino: nat)
    requires dev.Valid() && dev.blockSize % 64 == 0 && sb.blockSize % 64 == 0
    requires EntryAddr(sb, ino) / dev.blockSize !in dev.blocks
    ensures ReadEntry(dev, sb, ino) == Err(-EIO)
  {
    EntryReadNeverInvalid(dev, sb, ino);
  }

  /** On a device of 512-byte blocks holding only block 0, every entry of a formatted table
      lies past block 0, so its read fails with -EIO. */
  lemma OnlySuperblockEntryRead(dev: Device, partitionSize: u32, ino: nat)
    requires dev.Valid() && dev.blockSize == BLOCK_SIZE
    requires forall b: nat :: b in dev.blocks <==> b == 0
    requires Formattable(partitionSize) && ino < FormatSuperblock(partitionSize).entryCount
    ensures ReadEntry(dev, FormatSuperblock(partitionSize), ino) == Err(-EIO)
  {
    var sb := FormatSuperblock(partitionSize);
    FormattedEntryAddr(partitionSize, ino);
    var a := EntryAddr(sb, ino);
    assert a / BLOCK_SIZE != 0;
    FormatLayout(partitionSize);
    EntryReadMissing(dev, sb, ino);
  }

  /** A counterexample to `init_nizifs_info` as written: the magic check passes,
      entry 0 cannot be read, and the routine returns 1 instead of -EIO. */
  lemma PrecedenceCounterexample()
    ensures MountSafe(TruncatedDevice(), true)
    ensures MountAsWritten(TruncatedDevice(), true) == Err(1)
    ensures Mount(TruncatedDevice(), true) == Err(-EIO)
  {
    var dev := TruncatedDevice();
    var sb := FormatSuperblock(1000);
    FormatExample();
    FormatLayout(1000);
    TruncatedSuperblockRead();
    Ds.HeadersAgree();
    forall ino | 0 <= ino < sb.entryCount
      ensures !ReadEntry(dev, sb, ino).Ok?
    {
      OnlySuperblockEntryRead(dev, 1000, ino);
    }
    assert LayoutFits(dev, sb);
    OnlySuperblockEntryRead(dev, 1000, 0);
    AsWrittenMisreportsScanFailure(dev, true, 0);
    var s := InitSteps(dev, true);
    assert s.ScanFailed? && s.ino == 0;
  }
}

=== FILE: inode.dfy ===
/** The computational parts of the inode operations (inode.c): the owner permission bits a new
    file is stored with, the NUL-terminated name buffer handed to the storage calls, and the
    status each of create, lookup and unlink returns given what the storage and VFS calls
    report. The storage calls (`nizifs_create_file`, `nizifs_lookup_file`, `nizifs_remove_file`)
    and the outcomes of the VFS inode-cache calls are parameters: `None` stands for
    `INV_INODE`, a NULL `new_inode` or failed `insert_inode_locked` is a `false` flag, and a
    NULL `iget_locked` is `IgetFailed`. */
module Inode {
  import opened Bytes
  import opened Errno
  import Seqs
  import Nizifs

  /** `umode_t`: file type and permission bits. */
  type Mode = bv16

  const S_IFREG: Mode := 0x8000
  const S_IRUSR: Mode := 0x100
  const S_IWUSR: Mode := 0x80
  const S_IXUSR: Mode := 0x40
  const S_IRGRP: Mode := 0x20
  const S_IWGRP: Mode := 0x10
  const S_IXGRP: Mode := 0x8
  const S_IROTH: Mode := 0x4
  const S_IWOTH: Mode := 0x2
  const S_IXOTH: Mode := 0x1
  const S_IRWXU: Mode := S_IRUSR | S_IWUSR | S_IXUSR

  /** The mode lookup gives every file it instantiates: a regular file with all nine
      read/write/execute bits. */
  const LOOKUP_MODE: Mode :=
    S_IFREG | S_IRUSR | S_IRGRP | S_IROTH | S_IWUSR | S_IWGRP | S_IWOTH | S_IXUSR | S_IXGRP | S_IXOTH

  /** The 3-bit `perms` create stores: 4 for owner read, 2 for owner write, 1 for owner
      execute. */
  function Perms(mode: Mode): (p: nat)
    ensures p < 8
    ensures p >= 4 <==> mode & S_IRUSR != 0
    ensures p % 4 >= 2 <==> mode & S_IWUSR != 0
    ensures p % 2 == 1 <==> mode & S_IXUSR != 0
  {
    (if mode & S_IRUSR != 0 then 4 else 0)
    + (if mode & S_IWUSR != 0 then 2 else 0)
    + (if mode & S_IXUSR != 0 then 1 else 0)
  }

  /** The owner bits of a mode that `perms` describes. */
  function OwnerMode(p: nat): (m: Mode)
    requires p < 8
    ensures m & !S_IRWXU == 0
  {
    (p as bv16) << 6
  }

  /** Group, other, set-id and file-type bits do not reach `perms`. */
  lemma PermsIgnoresOtherBits(m1: Mode, m2: Mode)
    ensures m1 & S_IRWXU == m2 & S_IRWXU <==> Perms(m1) == Perms(m2)
  {
    if Perms(m1) == Perms(m2) {
      assert m1 & S_IRUSR == m2 & S_IRUSR;
      assert m1 & S_IWUSR == m2 & S_IWUSR;
      assert m1 & S_IXUSR == m2 & S_IXUSR;
    }
  }

  /** `perms` and the owner bits determine each other. */
  lemma PermsOwnerModeInverse(p: nat, mode: Mode)
    requires p < 8
    ensures Perms(OwnerMode(p)) == p
    ensures OwnerMode(Perms(mode)) == mode & S_IRWXU
  {
    var q := Perms(mode);
    assert q == 0 || q == 1 || q == 2 || q == 3 || q == 4 || q == 5 || q == 6 || q == 7;
    assert p == 0 || p == 1 || p == 2 || p == 3 || p == 4 || p == 5 || p == 6 || p == 7;
  }

  /** `strncpy(dst, src, n)`: the first `n` bytes of `src`, with every byte from the first NUL
      on replaced by NUL. The end of `src` reads as a NUL, as the name is NUL-terminated. */
  function Strncpy(src: seq<byte>, n: nat): (dst: seq<byte>)
    ensures |dst| == n
    ensures forall k | 0 <= k < n ::
      dst[k] == if k < |Seqs.PrefixBefore(src, 0)| then src[k] else 0
    decreases n
  {
    if n == 0 then []
    else if |src| == 0 || src[0] == 0 then Zeros(n)
    else
      assert Seqs.PrefixBefore(src, 0) == [src[0]] + Seqs.PrefixBefore(src[1..], 0) by {
        PrefixBeforeCons(src);
      }
      [src[0]] + Strncpy(src[1..], n - 1)
  }

  lemma PrefixBeforeCons(s: seq<byte>)
    requires |s| > 0 && s[0] != 0
    ensures Seqs.PrefixBefore(s, 0) == [s[0]] + Seqs.PrefixBefore(s[1..], 0)
  {
    var p := Seqs.PrefixBefore(s, 0);
    var t := Seqs.PrefixBefore(s[1..], 0);
    assert |p| >= 1;
    var p' := p[1..];
    assert p' == s[1..][..|p'|] && 0 !in p';
    assert |p'| < |s[1..]| ==> s[1..][|p'|] == 0;
    PrefixBeforeUnique(s[1..], p');
  }

  /** The prefix before the first NUL is the only prefix free of NUL that ends at a NUL or at
      the end. */
  lemma PrefixBeforeUnique(s: seq<byte>, q: seq<byte>)
    requires |q| <= |s| && q == s[..|q|] && 0 !in q
    requires |q| < |s| ==> s[|q|] == 0
    ensures Seqs.PrefixBefore(s, 0) == q
  {
    var p := Seqs.PrefixBefore(s, 0);
    assert forall k | 0 <= k < |q| :: s[k] == q[k] && q[k] != 0;
    assert forall k | 0 <= k < |p| :: s[k] == p[k] && p[k] != 0;
    assert |p| == |q|;
  }

  /** The buffer `fn` of `len + 1` bytes that create, lookup and unlink fill from the dentry
      name of length `len`. */
  function NameBuffer(dname: seq<byte>): (fn: seq<byte>)
    ensures |fn| == |dname| + 1
    ensures fn[|dname|] == 0
    ensures forall k | 0 <= k < |dname| ::
      fn[k] == if k < |Seqs.PrefixBefore(dname, 0)| then dname[k] else 0
  {
    Strncpy(dname, |dname|) + [0]
  }

  /** The buffer read back as a C string is the dentry name up to its first NUL. */
  lemma NameBufferReadsBack(dname: seq<byte>)
    ensures Seqs.PrefixBefore(NameBuffer(dname), 0) == Seqs.PrefixBefore(dname, 0)
  {
    var fn := NameBuffer(dname);
    var p := Seqs.PrefixBefore(dname, 0);
    assert p == fn[..|p|];
    PrefixBeforeUnique(fn, p);
  }

  /** A name without NUL bytes is copied whole and terminated. */
  lemma NameBufferPlain(dname: seq<byte>)
    requires 0 !in dname
    ensures NameBuffer(dname) == dname + [0]
  {
    PrefixBeforeUnique(dname, dname);
  }

  /** A VFS inode as these operations set it up. */
  datatype VfsInode = VfsInode(ino: nat, size: u32, mode: Mode)

  /** What the storage layer reports for a file it created or found: its slot and entry. */
  datatype StoredFile = StoredFile(ino: nat, entry: Nizifs.FileEntry)

  /** The outcome of `nizifs_inode_create`: its status, the name and perms it asked the
      storage layer to create, the name it removed again if a later step failed, and the
      inode it instantiated. */
  datatype Created = Created(
    status: int,
    name: seq<byte>,
    perms: nat,
    removed: Option<seq<byte>>,
    inode: Option<VfsInode>)

  /** `nizifs_inode_create`: `stored` is what `nizifs_create_file(fn, perms)` reported,
      `newInodeOk` whether `new_inode` succeeded, `insertOk` whether `insert_inode_locked`
      did. */
  function Create(dname: seq<byte>, mode: Mode, stored: Option<StoredFile>, newInodeOk: bool, insertOk: bool)
    : (r: Created)
    ensures r.name == NameBuffer(dname) && r.perms == Perms(mode)
    ensures stored.None? ==> r.status == -ENOSPC
    ensures stored.Some? && !newInodeOk ==> r.status == -ENOMEM
    ensures stored.Some? && newInodeOk && !insertOk ==> r.status == -EIO
    ensures r.status == 0 <==> stored.Some? && newInodeOk && insertOk
    ensures r.status <= 0
    ensures r.removed.Some? <==> stored.Some? && r.status != 0
    ensures r.removed.Some? ==> r.removed.value == r.name
    ensures r.inode.Some? <==> r.status == 0
    ensures r.status == 0 ==>
      r.inode.value == VfsInode(stored.value.ino, stored.value.entry.size, S_IFREG | mode)
  {
    var fn := NameBuffer(dname);
    var perms := Perms(mode);
    match stored
    case None => Created(-ENOSPC, fn, perms, None, None)
    case Some(file) =>
      if !newInodeOk then Created(-ENOMEM, fn, perms, Some(fn), None)
      else if !insertOk then Created(-EIO, fn, perms, Some(fn), None)
      else Created(0, fn, perms, None, Some(VfsInode(file.ino, file.entry.size, S_IFREG | mode)))
  }

  /** The file-type bit create adds does not change the permissions it stores: the perms
      read back from the new inode's mode are the ones passed to the storage layer. */
  lemma CreatePermsAgree(dname: seq<byte>, mode: Mode, stored: Option<StoredFile>)
    ensures var r := Create(dname, mode, stored, true, true);
      r.status == 0 ==> Perms(r.inode.value.mode) == r.perms
  {
    var r := Create(dname, mode, stored, true, true);
    if r.status == 0 {
      assert (S_IFREG | mode) & S_IRWXU == mode & S_IRWXU;
      PermsIgnoresOtherBits(S_IFREG | mode, mode);
    }
  }

  /** What `iget_locked` returned: nothing, a fresh inode to fill in, or a cached one. */
  datatype Iget = IgetFailed | IgetNew | IgetCached(inode: VfsInode)

  /** How `nizifs_inode_lookup` returns: an error pointer, a dentry left negative, or the
      dentry bound to an inode. */
  datatype LookupOutcome = LookupErr(code: int) | Absent | Bound(inode: VfsInode)

  /** The outcome of `nizifs_inode_lookup`: the name it asked the storage layer to find, if it
      got that far, and how it returned. */
  datatype Looked = Looked(searched: Option<seq<byte>>, outcome: LookupOutcome)

  /** `nizifs_inode_lookup`: only the root directory has entries; `found` is what
      `nizifs_lookup_file` reported for the name buffer and `iget` what the inode cache
      returned. */
  function Lookup(parentIno: nat, rootIno: nat, dname: seq<byte>, found: Option<StoredFile>, iget: Iget)
    : (r: Looked)
    ensures r.searched.Some? <==> parentIno == rootIno
    ensures r.searched.Some? ==> r.searched.value == NameBuffer(dname)
    ensures parentIno != rootIno ==> r.outcome == LookupErr(-ENOENT)
    ensures parentIno == rootIno && found.None? ==> r.outcome == Absent
    ensures parentIno == rootIno && found.Some? && iget.IgetFailed? ==> r.outcome == LookupErr(-EACCES)
    ensures r.outcome.LookupErr? ==> r.outcome.code < 0
    ensures r.outcome.Bound? <==> parentIno == rootIno && found.Some? && !iget.IgetFailed?
    ensures r.outcome.Bound? && iget.IgetNew? ==>
      r.outcome.inode == VfsInode(found.value.ino, found.value.entry.size, LOOKUP_MODE)
    ensures r.outcome.Bound? && iget.IgetCached? ==> r.outcome.inode == iget.inode
  {
    if parentIno != rootIno then Looked(None, LookupErr(-ENOENT))
    else
      var fn := NameBuffer(dname);
      var outcome :=
        match found
        case None => Absent
        case Some(file) =>
          match iget
          case IgetFailed => LookupErr(-EACCES)
          case IgetNew => Bound(VfsInode(file.ino, file.entry.size, LOOKUP_MODE))
          case IgetCached(inode) => Bound(inode);
      Looked(Some(fn), outcome)
  }

  /** A freshly instantiated inode grants everything to its owner whatever perms the entry
      stores: two entries that differ only in perms look up the same. */
  lemma LookupIgnoresStoredPerms(root: nat, dname: seq<byte>, file: StoredFile, perms: u32)
    ensures var r := Lookup(root, root, dname, Some(file), IgetNew);
      && r.outcome.Bound?
      && Perms(r.outcome.inode.mode) == 7
      && r == Lookup(root, root, dname, Some(file.(entry := file.entry.(perms := perms))), IgetNew)
  {
    assert LOOKUP_MODE & S_IRUSR != 0 && LOOKUP_MODE & S_IWUSR != 0 && LOOKUP_MODE & S_IXUSR != 0;
  }

  /** The outcome of `nizifs_inode_unlink`: the status, the name it asked the storage layer to
      remove, and whether the link count of the dentry's inode was dropped. */
  datatype Unlinked = Unlinked(status: int, name: seq<byte>, linkDropped: bool)

  /** `nizifs_inode_unlink`: `removed` is what `nizifs_remove_file` reported for the name
      buffer. */
  function Unlink(dname: seq<byte>, removed: Option<nat>): (r: Unlinked)
    ensures r.name == NameBuffer(dname)
    ensures removed.None? ==> r.status == -EINVAL
    ensures r.status == 0 <==> removed.Some?
    ensures r.linkDropped <==> r.status == 0
  {
    var fn := NameBuffer(dname);
    match removed
    case None => Unlinked(-EINVAL, fn, false)
    case Some(_) => Unlinked(0, fn, true)
  }

  /** Create, lookup and unlink address a dentry's file by the same key: lookup in the root
      searches for, and unlink asks to remove, the name create stored the file under, which is
      also the name create removes when a later step fails, and which reads as the dentry
      name up to its first NUL. */
  lemma SameNameKey(dname: seq<byte>, mode: Mode, stored: Option<StoredFile>, newInodeOk: bool,
                    insertOk: bool, root: nat, found: Option<StoredFile>, iget: Iget,
                    removed: Option<nat>)
    ensures var c := Create(dname, mode, stored, newInodeOk, insertOk);
      var l := Lookup(root, root, dname, found, iget);
      var u := Unlink(dname, removed);
      && l.searched == Some(c.name)
      && u.name == c.name
      && (c.removed.Some? ==> c.removed.value == u.name)
      && Seqs.PrefixBefore(u.name, 0) == Seqs.PrefixBefore(dname, 0)
  {
    NameBufferReadsBack(dname);
  }
}

=== FILE: mkfs.dfy ===
/** The formatter (mkfs_nizifs.c): the layout arithmetic and the byte image it leaves in the
    backing file. */
module Mkfs {
  import opened Bytes
  import opened Errno
  import Seqs
  import Arith
  import opened Nizifs
  import Ds = NizifsDs

  /** The entry table takes a tenth of the partition; `partition_size * 0.10` truncated to an
      integer is modelled as `partition_size / 10`. */
  const ENTRY_RATIO_DIVISOR: nat := 10
  const ENTRY_TABLE_BLOCK_START: nat := 1

  /** The superblock `main` fills in for a partition of `partitionSize` blocks. Every
      computation is on unsigned 32-bit fields. */
  function FormatSuperblock(partitionSize: u32): (sb: Superblock)
    ensures sb.WellFormed()
    ensures sb.fsType == FS_TYPE && sb.blockSize == BLOCK_SIZE && sb.entrySize == ENTRY_SIZE
    ensures sb.partitionSize == partitionSize && sb.entryTableBlockStart == 1
    ensures sb.entryTableSize * 10 <= partitionSize < sb.entryTableSize * 10 + 10
    ensures sb.dataBlockStart == sb.entryTableBlockStart + sb.entryTableSize
    ensures sb.entryTableSize < 0x80_0000 ==> sb.entryCount == 8 * sb.entryTableSize
    ensures forall i | 0 <= i < |sb.reserved| :: sb.reserved[i] == 0
  {
    Ds.HeadersAgree();
    var ets := partitionSize / ENTRY_RATIO_DIVISOR;
    Superblock(
      fsType := Ds.FS_TYPE,
      blockSize := Ds.BLOCK_SIZE,
      partitionSize := partitionSize,
      entrySize := Ds.ENTRY_SIZE,
      entryTableSize := ets,
      entryTableBlockStart := ENTRY_TABLE_BLOCK_START,
      entryCount := Wrap(ets * Ds.BLOCK_SIZE) / Ds.ENTRY_SIZE,
      dataBlockStart := Wrap(ENTRY_TABLE_BLOCK_START + ets),
      reserved := seq(Ds.RESERVED_WORDS, _ => 0))
  }

  /** The largest partition whose size in bytes, partition_size * 512, fits 32 bits. */
  const MAX_PARTITION_BLOCKS: nat := 0x80_0000

  /** The size restriction under which none of the unsigned computations wraps. */
  predicate Formattable(partitionSize: u32) {
    1 <= partitionSize <= MAX_PARTITION_BLOCKS
  }

  /** The layout a formatted partition has: the table fills its blocks exactly and the data
      region [data_block_start, partition_size) follows it. */
  lemma FormatLayout(partitionSize: u32)
    requires Formattable(partitionSize)
    ensures var sb := FormatSuperblock(partitionSize);
      && sb.fsType == FS_TYPE && sb.blockSize == BLOCK_SIZE && sb.entrySize == ENTRY_SIZE
      && sb.partitionSize == partitionSize
      && sb.entryTableSize == partitionSize / 10
      && sb.entryCount * ENTRY_SIZE == sb.entryTableSize * BLOCK_SIZE
      && sb.entryCount == 8 * sb.entryTableSize
      && sb.entryTableBlockStart == 1
      && sb.dataBlockStart == sb.entryTableBlockStart + sb.entryTableSize
      && sb.dataBlockStart <= partitionSize
      && BLOCK_SIZE + sb.entryCount * ENTRY_SIZE == sb.dataBlockStart * BLOCK_SIZE
    ensures partitionSize * BLOCK_SIZE <= U32_LIMIT
  {
    Arith.MulMonotone(partitionSize, MAX_PARTITION_BLOCKS, BLOCK_SIZE);
    var ets := partitionSize / 10;
    assert ets <= partitionSize;
    Arith.MulMonotone(ets, partitionSize, 512);
    assert ets * 512 < U32_LIMIT;
    assert ets * 512 == (8 * ets) * 64;
    assert Wrap(ets * 512) / 64 == 8 * ets;
  }

  /** 1000 blocks: a table of 100 blocks holding 800 entries, data from block 101. */
  lemma FormatExample()
    ensures FormatSuperblock(1000).entryTableSize == 100
    ensures FormatSuperblock(1000).entryCount == 800
    ensures FormatSuperblock(1000).dataBlockStart == 101
  {
  }

  /** A write of `data` at byte `pos` of a regular file: bytes past the old end that are not
      written read as zero, as after an lseek beyond the end. */
  function WriteAt(file: seq<byte>, pos: nat, data: seq<byte>): (r: seq<byte>)
    ensures |r| == if pos + |data| <= |file| then |file| else pos + |data|
    ensures forall k | 0 <= k < |r| ::
      r[k] == if pos <= k < pos + |data| then data[k - pos] else if k < |file| then file[k] else 0
  {
    var padded := if pos + |data| <= |file| then file else file + Zeros(pos + |data| - |file|);
    padded[..pos] + data + padded[pos + |data|..]
  }

  /** The table `clear_file_entries` writes: `entry_count` copies of the zeroed entry. */
  function ClearedTable(entryCount: nat): (r: seq<byte>)
    ensures |r| == entryCount * ENTRY_SIZE
    ensures forall k | 0 <= k < |r| :: r[k] == 0
  {
    EmptyEntryBytes();
    Seqs.Concat(EncodeEntry(EmptyEntry()), entryCount)
  }

  /** The backing file after `write_super_block`, `clear_file_entries` and `mark_data_blocks`:
      the last call seeks to byte `partition_size * block_size - 1` and writes one zero. */
  function Image(sb: Superblock): (img: seq<byte>)
    requires sb.WellFormed()
    ensures var last := Wrap(sb.partitionSize * sb.blockSize - 1);
      var table := BLOCK_SIZE + sb.entryCount * ENTRY_SIZE;
      && |img| == (if last < table then table else last + 1)
      && img[last] == 0
      && forall k | 0 <= k < |img| && k != last :: img[k] == if k < BLOCK_SIZE then EncodeSuperblock(sb)[k] else 0
  {
    var written := EncodeSuperblock(sb) + ClearedTable(sb.entryCount);
    WriteAt(written, Wrap(sb.partitionSize * sb.blockSize - 1), [0])
  }

  /** The image is `partition_size` blocks long: the superblock, then zeros, which is an
      all-empty entry table followed by an unused data region. */
  lemma ImageLayout(partitionSize: u32)
    requires Formattable(partitionSize)
    ensures var sb := FormatSuperblock(partitionSize); var img := Image(sb);
      && |img| == partitionSize * BLOCK_SIZE
      && img[..BLOCK_SIZE] == EncodeSuperblock(sb)
      && forall k | BLOCK_SIZE <= k < |img| :: img[k] == 0
  {
    var sb := FormatSuperblock(partitionSize);
    FormatLayout(partitionSize);
    var sbBytes := EncodeSuperblock(sb);
    var len := partitionSize * BLOCK_SIZE;
    assert BLOCK_SIZE + sb.entryCount * ENTRY_SIZE == sb.dataBlockStart * BLOCK_SIZE <= len by {
      Arith.MulMonotone(sb.dataBlockStart, partitionSize, BLOCK_SIZE);
    }
    var last := Wrap(sb.partitionSize * sb.blockSize - 1);
    assert last == len - 1;
    var img := Image(sb);
    assert |img| == len;
    // The last superblock byte belongs to the last padding word, which is zero.
    assert sbBytes[508..512] == EncodeU32(sb.Words()[127]);
    assert sb.Words()[127] == 0;
    EncodeZeroU32();
    assert sbBytes[511] == 0;
    forall k | 0 <= k < BLOCK_SIZE
      ensures img[k] == sbBytes[k]
    {
    }
  }

  /** The outcome of one run of the tool: its exit status and the backing file it produced. */
  datatype Run = Run(status: int, image: Option<seq<byte>>)

  /** `main`: a usage error exits 1 before anything is written; failure to create the backing
      file exits 2; otherwise the image is written and the tool exits 0. The partition size is
      the value `atoi` parsed from the single argument. */
  function Format(argc: nat, partitionSize: u32, canCreate: bool): (r: Run)
    ensures r.status == 0 <==> argc == 2 && canCreate
    ensures r.status == 1 <==> argc != 2
    ensures r.status == 2 <==> argc == 2 && !canCreate
    ensures r.image.Some? <==> r.status == 0
    ensures r.image.Some? ==> r.image.value == Image(FormatSuperblock(partitionSize))
  {
    if argc != 2 then Run(1, None)
    else if !canCreate then Run(2, None)
    else Run(0, Some(Image(FormatSuperblock(partitionSize))))
  }
}

=== FILE: nizifs.dfy ===
/** The kernel-side view of the on-disk format (nizifs.h): the format constants and the
    superblock and file-entry records, with their byte images as memcpy produces them. */
module Nizifs {
  import opened Bytes
  import Seqs

  /** Magic number identifying a nizifs partition. */
  const FS_TYPE: nat := 0x13090D15
  /** Allocation unit in bytes. */
  const BLOCK_SIZE: nat := 512
  /** Bytes per file-entry record. */
  const ENTRY_SIZE: nat := 64
  /** log2 of BLOCK_SIZE. */
  const BLOCK_SIZE_BITS: nat := 9
  /** Bytes in the name buffer, terminator included. */
  const FILENAME_LEN: nat := 16
  /** Direct block slots per entry: what is left of the record after the name and three words. */
  const DATA_BLOCK_CNT: nat := (ENTRY_SIZE - (FILENAME_LEN + 3 * 4)) / 4
  /** Words of padding that make the superblock exactly one block. */
  const RESERVED_WORDS: nat := BLOCK_SIZE / 4 - 8

  /** sizeof(nizifs_super_block_t): eight words and the padding. */
  const SUPERBLOCK_BYTES: nat := 4 * (8 + RESERVED_WORDS)
  /** sizeof(nizifs_file_entry_t): the name, three words and the block slots. */
  const ENTRY_BYTES: nat := FILENAME_LEN + 3 * 4 + 4 * DATA_BLOCK_CNT
  /** A file can use every direct slot, one block each. */
  const MAX_FILE_SIZE: nat := DATA_BLOCK_CNT * BLOCK_SIZE

  function Pow2(n: nat): (r: nat)
    ensures r >= 1
  {
    if n == 0 then 1 else 2 * Pow2(n - 1)
  }

  /** The arithmetic the header's comments promise. */
  lemma HeaderArithmetic()
    ensures DATA_BLOCK_CNT == 9
    ensures SUPERBLOCK_BYTES == BLOCK_SIZE == 128 * 4
    ensures ENTRY_BYTES == ENTRY_SIZE
    ensures Pow2(BLOCK_SIZE_BITS) == BLOCK_SIZE
    ensures MAX_FILE_SIZE == 4608
  {
  }

  datatype Superblock = Superblock(
    fsType: u32,
    blockSize: u32,
    partitionSize: u32,
    entrySize: u32,
    entryTableSize: u32,
    entryTableBlockStart: u32,
    entryCount: u32,
    dataBlockStart: u32,
    reserved: seq<u32>)
  {
    predicate WellFormed() {
      |reserved| == RESERVED_WORDS
    }

    /** The eight header words in declaration order, then the padding. */
    function Words(): seq<u32> {
      [fsType, blockSize, partitionSize, entrySize, entryTableSize,
       entryTableBlockStart, entryCount, dataBlockStart] + reserved
    }
  }

  datatype FileEntry = FileEntry(
    name: seq<byte>,
    size: u32,
    timestamp: u32,
    perms: u32,
    blocks: seq<u32>)
  {
    predicate WellFormed() {
      |name| == FILENAME_LEN && |blocks| == DATA_BLOCK_CNT
    }

    /** A slot is in use exactly when the first byte of its name is not NUL. */
    predicate IsLive()
      requires WellFormed()
      ensures 0 in name ==> (IsLive() <==> |Name()| > 0)
    {
      name[0] != 0
    }

    /** The block numbers a scan of this entry visits: every slot before the first zero slot. */
    function LiveBlocks(): (r: seq<u32>)
      ensures |r| <= |blocks| && r == blocks[..|r|] && 0 !in r
      ensures |r| < |blocks| ==> blocks[|r|] == 0
    {
      Seqs.PrefixBefore(blocks, 0)
    }

    /** The slots are used front to back: nothing follows a zero slot. */
    predicate GapFree() {
      forall i, j | 0 <= i < j < |blocks| :: blocks[i] == 0 ==> blocks[j] == 0
    }

    /** The significant part of the name: the bytes before its terminator. */
    function Name(): (r: seq<byte>)
      requires WellFormed() && 0 in name
      ensures |r| <= |name| && r == name[..|r|] && 0 !in r
      ensures |r| <= FILENAME_LEN - 1
    {
      Seqs.PrefixBefore(name, 0)
    }
  }

  /** The record every formatted slot holds: all fields zero. */
  function EmptyEntry(): (e: FileEntry)
    ensures e.WellFormed() && !e.IsLive()
  {
    FileEntry(Zeros(FILENAME_LEN), 0, 0, 0, seq(DATA_BLOCK_CNT, _ => 0))
  }

  /** The 512 bytes memcpy copies for a superblock: eight words, then the padding. */
  function EncodeSuperblock(sb: Superblock): (r: seq<byte>)
    requires sb.WellFormed()
    ensures |r| == BLOCK_SIZE
    ensures r[0..4] == EncodeU32(sb.fsType)
  {
    var r := EncodeWords(sb.Words());
    assert sb.Words()[0] == sb.fsType;
    r
  }

  function DecodeSuperblock(bs: seq<byte>): (sb: Superblock)
    requires |bs| == BLOCK_SIZE
    ensures sb.WellFormed()
    ensures sb.fsType == DecodeU32(bs[0..4])
  {
    var ws := DecodeWords(bs);
    Superblock(ws[0], ws[1], ws[2], ws[3], ws[4], ws[5], ws[6], ws[7], ws[8..])
  }

  /** The 64 bytes of a file entry: name at 0, size at 16, timestamp at 20, perms at 24,
      block slots from 28 on. */
  function EncodeEntry(e: FileEntry): (r: seq<byte>)
    requires e.WellFormed()
    ensures |r| == ENTRY_SIZE
    ensures r[0..16] == e.name
    ensures r[16..20] == EncodeU32(e.size)
    ensures r[20..24] == EncodeU32(e.timestamp)
    ensures r[24..28] == EncodeU32(e.perms)
    ensures forall j | 0 <= j < DATA_BLOCK_CNT :: r[28 + 4 * j .. 32 + 4 * j] == EncodeU32(e.blocks[j])
  {
    var ws := [e.size, e.timestamp, e.perms] + e.blocks;
    var tail := EncodeWords(ws);
    var r := e.name + tail;
    assert r[16..] == tail;
    assert r[16..20] == tail[0..4] && ws[0] == e.size;
    assert r[20..24] == tail[4..8] && ws[1] == e.timestamp;
    assert r[24..28] == tail[8..12] && ws[2] == e.perms;
    forall j | 0 <= j < DATA_BLOCK_CNT
      ensures r[28 + 4 * j .. 32 + 4 * j] == EncodeU32(e.blocks[j])
    {
      assert r[28 + 4 * j .. 32 + 4 * j] == tail[4 * (j + 3) .. 4 * (j + 3) + 4];
      assert ws[j + 3] == e.blocks[j];
    }
    r
  }

  function DecodeEntry(bs: seq<byte>): (e: FileEntry)
    requires |bs| == ENTRY_SIZE
    ensures e.WellFormed()
    ensures e.name == bs[0..16]
  {
    var ws := DecodeWords(bs[16..]);
    FileEntry(bs[..16], ws[0], ws[1], ws[2], ws[3..])
  }

  /** Reading back a written superblock yields every field, padding included. */
  lemma SuperblockRoundTrip(sb: Superblock)
    requires sb.WellFormed()
    ensures DecodeSuperblock(EncodeSuperblock(sb)) == sb
  {
    DecodeEncodeWords(sb.Words());
  }

  /** Every 512-byte block is the image of the superblock it decodes to. */
  lemma SuperblockBytesRoundTrip(bs: seq<byte>)
    requires |bs| == BLOCK_SIZE
    ensures EncodeSuperblock(DecodeSuperblock(bs)) == bs
  {
    var ws := DecodeWords(bs);
    assert DecodeSuperblock(bs).Words() == ws;
    EncodeDecodeWords(bs);
  }

  /** Reading back a written entry yields every field. */
  lemma EntryRoundTrip(e: FileEntry)
    requires e.WellFormed()
    ensures DecodeEntry(EncodeEntry(e)) == e
  {
    var ws := [e.size, e.timestamp, e.perms] + e.blocks;
    var r := EncodeEntry(e);
    assert r[16..] == EncodeWords(ws);
    DecodeEncodeWords(ws);
  }

  /** Every 64-byte record is the image of the entry it decodes to. */
  lemma EntryBytesRoundTrip(bs: seq<byte>)
    requires |bs| == ENTRY_SIZE
    ensures EncodeEntry(DecodeEntry(bs)) == bs
  {
    var e := DecodeEntry(bs);
    var ws := DecodeWords(bs[16..]);
    assert [e.size, e.timestamp, e.perms] + e.blocks == ws;
    EncodeDecodeWords(bs[16..]);
    assert EncodeEntry(e) == bs[..16] + bs[16..];
  }

  /** A zero-filled record decodes to the empty entry, and the empty entry is written as zeros. */
  lemma EmptyEntryBytes()
    ensures EncodeEntry(EmptyEntry()) == Zeros(ENTRY_SIZE)
    ensures DecodeEntry(Zeros(ENTRY_SIZE)) == EmptyEntry()
  {
    var e := EmptyEntry();
    var ws := [e.size, e.timestamp, e.perms] + e.blocks;
    assert forall i | 0 <= i < |ws| :: ws[i] == 0;
    EncodeZeroWords(ws);
    var enc := EncodeEntry(e);
    assert enc == e.name + EncodeWords(ws);
    assert enc == Zeros(FILENAME_LEN) + Zeros(4 * |ws|);
    ZerosConcat(FILENAME_LEN, 4 * |ws|);
    EntryRoundTrip(e);
  }

  /** For a gap-free entry the scanned blocks are exactly its non-zero slots. */
  lemma GapFreeLiveBlocks(e: FileEntry)
    requires e.GapFree()
    ensures forall b :: b in e.LiveBlocks() <==> b in e.blocks && b != 0
  {
    var live := e.LiveBlocks();
    forall b | b in e.blocks && b != 0
      ensures b in live
    {
      var j :| 0 <= j < |e.blocks| && e.blocks[j] == b;
      assert j < |live|;
      assert live[j] == b;
    }
  }
}

=== FILE: nizifs_ds.dfy ===
/** The formatter's copy of the format constants (nizifs_ds.h). It declares the same two
    structs with the same field order as nizifs.h, so the model shares Nizifs.Superblock and
    Nizifs.FileEntry; what this module adds is the second set of numbers and the proof that
    they agree with the kernel's. */
module NizifsDs {
  import Nizifs

  const FS_TYPE: nat := 0x13090D15
  const BLOCK_SIZE: nat := 512
  const ENTRY_SIZE: nat := 64
  /** Same derivation as the kernel header, with the name length written as a literal 16. */
  const DATA_BLOCK_CNT: nat := (ENTRY_SIZE - (16 + 3 * 4)) / 4
  const RESERVED_WORDS: nat := BLOCK_SIZE / 4 - 8
  /** sizeof(nizifs_super_block_t) in the formatter. */
  const SUPERBLOCK_BYTES: nat := 4 * (8 + RESERVED_WORDS)
  /** sizeof(nizifs_file_entry_t) in the formatter. */
  const ENTRY_BYTES: nat := 16 + 3 * 4 + 4 * DATA_BLOCK_CNT

  /** What the formatter writes is laid out exactly as the kernel reads it. */
  lemma HeadersAgree()
    ensures FS_TYPE == Nizifs.FS_TYPE
    ensures BLOCK_SIZE == Nizifs.BLOCK_SIZE
    ensures ENTRY_SIZE == Nizifs.ENTRY_SIZE
    ensures DATA_BLOCK_CNT == Nizifs.DATA_BLOCK_CNT == 9
    ensures RESERVED_WORDS == Nizifs.RESERVED_WORDS
    ensures SUPERBLOCK_BYTES == Nizifs.SUPERBLOCK_BYTES == BLOCK_SIZE
    ensures ENTRY_BYTES == Nizifs.ENTRY_BYTES == ENTRY_SIZE
  {
  }
}

=== FILE: real_io.dfy ===
/** Record reads from the underlying block device (real_io.c). The device is a map from
    device block numbers to their contents; a missing block is one `sb_bread` cannot read. */
module RealIo {
  import opened Bytes
  import opened Errno
  import opened Nizifs
  import opened Arith

  /** Largest device block size the model admits (Linux block sizes are powers of two no
      larger than a page); it keeps `offset + len` from wrapping for the lengths read here. */
  const MAX_DEVICE_BLOCK: nat := 0x8000_0000

  datatype Device = Device(blockSize: nat, blocks: map<nat, seq<byte>>)
  {
    /** `bd_block_size` is positive and every readable block holds exactly that many bytes. */
    predicate Valid() {
      && 0 < blockSize <= MAX_DEVICE_BLOCK
      && forall b | b in blocks :: |blocks[b]| == blockSize
    }

    /** The byte at absolute device address `a`, if the block holding it can be read. */
    function ByteAt(a: nat): Option<byte>
      requires Valid()
    {
      if a / blockSize in blocks then Some(blocks[a / blockSize][a % blockSize]) else None
    }
  }

  /** Absolute byte address of (block, offset) in units of the filesystem block size,
      computed in 32-bit unsigned arithmetic. */
  function AbsAddr(fsBlockSize: u32, block: u32, offset: u32): (a: u32)
    ensures block * fsBlockSize + offset < U32_LIMIT ==> a == block * fsBlockSize + offset
  {
    Wrap(block * fsBlockSize + offset)
  }

  /** Bytes `a .. a + k` with `a % d + k < d` lie in the block holding `a`. */
  lemma SameDeviceBlock(a: nat, k: nat, d: nat)
    requires 0 < d && a % d + k < d
    ensures (a + k) / d == a / d && (a + k) % d == a % d + k
  {
    DivModUnique(a + k, d, a / d, a % d + k);
  }

  /** `read_from_nizifs`: translate to a device block and offset, refuse a read that crosses a
      device block boundary, then copy `len` bytes out of the block. */
  function ReadFrom(dev: Device, fsBlockSize: u32, block: u32, offset: u32, len: u32): (r: Result<seq<byte>>)
    requires dev.Valid()
    requires len <= MAX_DEVICE_BLOCK
    ensures var a := AbsAddr(fsBlockSize, block, offset);
      && (r == Err(-EINVAL) <==> a % dev.blockSize + len > dev.blockSize)
      && (r == Err(-EIO) <==> a % dev.blockSize + len <= dev.blockSize && a / dev.blockSize !in dev.blocks)
      && (r.Ok? <==> a % dev.blockSize + len <= dev.blockSize && a / dev.blockSize in dev.blocks)
      && (r.Ok? ==> |r.value| == len && forall k | 0 <= k < len :: dev.ByteAt(a + k) == Some(r.value[k]))
  {
    var a := AbsAddr(fsBlockSize, block, offset);
    var devBlock := a / dev.blockSize;
    var devOffset := a % dev.blockSize;
    if devOffset + len > dev.blockSize then Err(-EINVAL)
    else if devBlock !in dev.blocks then Err(-EIO)
    else
      var bytes := dev.blocks[devBlock][devOffset .. devOffset + len];
      assert forall k | 0 <= k < len :: dev.ByteAt(a + k) == Some(bytes[k]) by {
        forall k | 0 <= k < len
          ensures dev.ByteAt(a + k) == Some(bytes[k])
        {
          SameDeviceBlock(a, k, dev.blockSize);
        }
      }
      Ok(bytes)
  }

  /** Where entry `ino` starts: `ino * 64` bytes into the entry table, in 32-bit arithmetic.
      `ino` is not checked against `entry_count`. */
  function EntryAddr(sb: Superblock, ino: nat): (a: u32)
    ensures sb.entryTableBlockStart * sb.blockSize + ino * ENTRY_BYTES < U32_LIMIT ==>
      a == sb.entryTableBlockStart * sb.blockSize + ino * ENTRY_BYTES
  {
    AbsAddr(sb.blockSize, sb.entryTableBlockStart, Wrap(ino * ENTRY_BYTES))
  }

  /** `read_entry_from_nizifs`: one 64-byte read at the entry's address, decoded. */
  function ReadEntry(dev: Device, sb: Superblock, ino: nat): (r: Result<FileEntry>)
    requires dev.Valid()
    ensures var a := EntryAddr(sb, ino);
      && (r == Err(-EINVAL) <==> a % dev.blockSize + ENTRY_BYTES > dev.blockSize)
      && (r == Err(-EIO) <==> a % dev.blockSize + ENTRY_BYTES <= dev.blockSize && a / dev.blockSize !in dev.blocks)
      && (r.Ok? <==> a % dev.blockSize + ENTRY_BYTES <= dev.blockSize && a / dev.blockSize in dev.blocks)
      && (r.Ok? ==> r.value.WellFormed())
      && (r.Ok? ==> forall k | 0 <= k < ENTRY_BYTES :: dev.ByteAt(a + k) == Some(EncodeEntry(r.value)[k]))
  {
    match ReadFrom(dev, sb.blockSize, sb.entryTableBlockStart, Wrap(ino * ENTRY_BYTES), ENTRY_BYTES)
    case Err(code) => Err(code)
    case Ok(bytes) =>
      EntryBytesRoundTrip(bytes);
      Ok(DecodeEntry(bytes))
  }

  /** `read_sb_from_nizifs`: device block 0, first 512 bytes. */
  function ReadSb(dev: Device): (r: Result<Superblock>)
    requires dev.Valid() && dev.blockSize >= BLOCK_SIZE
    ensures r.Err? <==> 0 !in dev.blocks
    ensures r.Err? ==> r.code == -EIO
    ensures r.Ok? ==> r.value.WellFormed()
    ensures r.Ok? ==> forall k | 0 <= k < BLOCK_SIZE :: dev.ByteAt(k) == Some(EncodeSuperblock(r.value)[k])
  {
    if 0 !in dev.blocks then Err(-EIO)
    else
      var bytes := dev.blocks[0][..BLOCK_SIZE];
      SuperblockBytesRoundTrip(bytes);
      assert forall k | 0 <= k < BLOCK_SIZE :: dev.ByteAt(k) == Some(bytes[k]) by {
        forall k | 0 <= k < BLOCK_SIZE
          ensures dev.ByteAt(k) == Some(bytes[k])
        {
          DivModUnique(k, dev.blockSize, 0, k);
        }
      }
      Ok(DecodeSuperblock(bytes))
  }

  /** Reducing modulo 2^32 keeps a multiple of 64 a multiple of 64, as 2^32 = 64 * 2^26. */
  lemma WrapKeepsAlignment(x: int)
    requires x % 64 == 0
    ensures Wrap(x) % 64 == 0
  {
    var q := x / 64;
    var m := x / U32_LIMIT;
    assert x == 64 * q;
    assert Wrap(x) == x - U32_LIMIT * m;
    assert U32_LIMIT * m == 64 * (0x400_0000 * m);
    var t := q - 0x400_0000 * m;
    assert Wrap(x) == 64 * t;
    NonNegFactor(t, 64);
    DivModUnique(Wrap(x), 64, t, 0);
  }

  /** With a filesystem block size that is a multiple of 64, every entry address is too. */
  lemma EntryAddrAligned(sb: Superblock, ino: nat)
    requires sb.blockSize % 64 == 0
    ensures EntryAddr(sb, ino) % 64 == 0
  {
    var off: nat := Wrap(ino * ENTRY_BYTES);
    WrapKeepsAlignment(ino * ENTRY_BYTES);
    ScaledAligned(sb.entryTableBlockStart, sb.blockSize);
    SumAligned(sb.entryTableBlockStart * sb.blockSize, off);
    WrapKeepsAlignment(sb.entryTableBlockStart * sb.blockSize + off);
  }

  lemma ScaledAligned(s: nat, bs: nat)
    requires bs % 64 == 0
    ensures (s * bs) % 64 == 0
  {
    MulAssoc(s, bs / 64, 64);
    assert s * bs == (s * (bs / 64)) * 64;
  }

  lemma SumAligned(x: nat, y: nat)
    requires x % 64 == 0 && y % 64 == 0
    ensures (x + y) % 64 == 0
  {
    assert x + y == (x / 64 + y / 64) * 64;
  }

  /** With a device block size and filesystem block size that are multiples of 64, no entry
      read ever straddles a device block, so the "should never happen" refusal never happens. */
  lemma EntryReadNeverInvalid(dev: Device, sb: Superblock, ino: nat)
    requires dev.Valid() && dev.blockSize % 64 == 0 && sb.blockSize % 64 == 0
    ensures ReadEntry(dev, sb, ino) != Err(-EINVAL)
    ensures ReadEntry(dev, sb, ino).Ok? <==> EntryAddr(sb, ino) / dev.blockSize in dev.blocks
  {
    EntryAddrAligned(sb, ino);
    ModOfMultiples(EntryAddr(sb, ino), dev.blockSize, 64);
  }

  function Chunk(image: seq<byte>, bs: nat, b: nat): (c: seq<byte>)
    requires 0 < bs && b < |image| / bs
    ensures |c| == bs
    ensures b * bs + bs <= |image|
    ensures c == image[b * bs .. b * bs + bs]
  {
    ChunkInRange(|image|, bs, b);
    image[b * bs .. b * bs + bs]
  }

  lemma ChunkInRange(n: nat, bs: nat, b: nat)
    requires 0 < bs && b < n / bs
    ensures b * bs + bs <= n
  {
    assert b + 1 <= n / bs;
    assert (b + 1) * bs <= (n / bs) * bs;
  }

  /** A byte image cut into device blocks of `bs` bytes; a trailing partial block is not
      readable. */
  function DeviceOf(image: seq<byte>, bs: nat): (d: Device)
    requires 0 < bs <= MAX_DEVICE_BLOCK
    ensures d.Valid() && d.blockSize == bs
    ensures forall b: nat :: b in d.blocks <==> b < |image| / bs
    ensures forall b | b in d.blocks :: d.blocks[b] == Chunk(image, bs, b)
  {
    Device(bs, map b: nat | b < |image| / bs :: Chunk(image, bs, b))
  }

  /** Reading a device made from an image yields the image's bytes. */
  lemma DeviceOfBytes(image: seq<byte>, bs: nat, a: nat)
    requires 0 < bs <= MAX_DEVICE_BLOCK && |image| % bs == 0
    ensures DeviceOf(image, bs).ByteAt(a) == if a < |image| then Some(image[a]) else None
  {
    var d := DeviceOf(image, bs);
    var q, r := a / bs, a % bs;
    var n := |image| / bs;
    DivModUnique(|image|, bs, n, 0);
    BlockOfAddress(a, bs, n);
    if a < |image| {
      var c := Chunk(image, bs, q);
      var base := q * bs;
      assert c == image[base .. base + bs];
      assert d.ByteAt(a) == Some(c[r]);
      assert c[r] == image[base + r];
    }
  }

  /** An address lies below `n` whole blocks exactly when its block number is below `n`. */
  lemma BlockOfAddress(a: nat, bs: nat, n: nat)
    requires 0 < bs
    ensures a < n * bs <==> a / bs < n
    ensures a == a / bs * bs + a % bs
  {
    var q := a / bs;
    if q >= n {
      MulMonotone(n, q, bs);
    } else {
      MulMonotone(q + 1, n, bs);
    }
  }
}

=== FILE: seqs.dfy ===
/** Small facts about sequences shared by the record codec and the name helpers. */
module Seqs {

  /** Index of the first occurrence of `x` in `s` at or after `from`, or `|s|` if there is none.
      Used for "the first zero block slot" and "the first NUL byte of a name". */
  function IndexOfFrom<T(==)>(s: seq<T>, x: T, from: nat): (r: nat)
    requires from <= |s|
    ensures from <= r <= |s|
    ensures forall k | from <= k < r :: s[k] != x
    ensures r < |s| ==> s[r] == x
    decreases |s| - from
  {
    if from == |s| then from
    else if s[from] == x then from
    else IndexOfFrom(s, x, from + 1)
  }

  /** The prefix of `s` before the first `x`. */
  function PrefixBefore<T(==)>(s: seq<T>, x: T): (r: seq<T>)
    ensures |r| <= |s| && r == s[..|r|]
    ensures x !in r
    ensures |r| < |s| ==> s[|r|] == x
  {
    s[..IndexOfFrom(s, x, 0)]
  }

  /** `n` copies of the record `rec`, laid one after the other. */
  function Concat<T>(rec: seq<T>, n: nat): (r: seq<T>)
    ensures |r| == n * |rec|
    ensures forall k | 0 <= k < |r| :: r[k] in rec
  {
    if n == 0 then [] else Concat(rec, n - 1) + rec
  }
}

=== FILE: super.dfy ===
/** Mount-time initialisation (`init_nizifs_info` in super.c): read and check the superblock,
    then rebuild the used-block map from the reserved area and every live entry. */
module Super {
  import opened Bytes
  import opened Errno
  import opened Nizifs
  import opened RealIo
  import Seqs

  /** The per-mount state: the superblock read from disk and one used flag per block. */
  datatype Info = Info(sb: Superblock, used: seq<bool>)

  /** Block `b` is listed, before the first zero slot, by a live entry read as `r`. */
  predicate Lists(r: Result<FileEntry>, b: nat) {
    r.Ok? && r.value.WellFormed() && r.value.IsLive() && b in r.value.LiveBlocks()
  }

  /** Every block the scan would mark for the entry read as `r` is below `partitionSize`. */
  predicate Fits(r: Result<FileEntry>, partitionSize: nat) {
    r.Ok? && r.value.WellFormed() && r.value.IsLive() ==>
      forall b | b in r.value.LiveBlocks() :: b < partitionSize
  }

  /** Entries `0 .. n` of the table all read successfully. */
  predicate TableReads(dev: Device, sb: Superblock, n: nat)
    requires dev.Valid()
  {
    forall ino | 0 <= ino < n :: ReadEntry(dev, sb, ino).Ok?
  }

  /** The largest value of the signed `int` loop index `i` in `init_nizifs_info`. */
  const INT_MAX: nat := 0x7FFF_FFFF

  /** What `init_nizifs_info` relies on without checking once it writes the map:
      - the signed index `i` of the two marking loops counts up to `partition_size`, so that
        must not exceed INT_MAX (which also bounds `data_block_start`);
      - the reserved area fits in the map of `partition_size` flags;
      - the scan index never steps past INT_MAX, which it would after reading entries
        0 .. INT_MAX successfully when `entry_count` is larger;
      - every block listed by an entry the scan reaches (all entries before it read
        successfully) fits in the map. */
  predicate LayoutFits(dev: Device, sb: Superblock)
    requires dev.Valid()
  {
    && sb.partitionSize <= INT_MAX
    && sb.dataBlockStart <= sb.partitionSize
    && (TableReads(dev, sb, INT_MAX + 1) ==> sb.entryCount <= INT_MAX)
    && forall ino | 0 <= ino < sb.entryCount ::
      TableReads(dev, sb, ino) ==> Fits(ReadEntry(dev, sb, ino), sb.partitionSize)
  }

  /** The inputs the routine is defined on: a readable device with blocks of at least 512
      bytes whose layout keeps every write in bounds whenever the map is written, that is,
      when the superblock carries the magic number and `vmalloc` succeeded (`allocOk`). */
  predicate MountSafe(dev: Device, allocOk: bool) {
    && dev.Valid()
    && dev.blockSize >= BLOCK_SIZE
    && (allocOk && ReadSb(dev).Ok? && ReadSb(dev).value.fsType == FS_TYPE ==> LayoutFits(dev, ReadSb(dev).value))
  }

  /** Some live entry of the table lists block `b`. */
  ghost predicate Listed(dev: Device, sb: Superblock, b: nat)
    requires dev.Valid()
  {
    exists ino | 0 <= ino < sb.entryCount :: Lists(ReadEntry(dev, sb, ino), b)
  }

  /** The inner loop: mark the blocks of slots `j, j+1, ...` up to the first zero slot. */
  function MarkSlots(used: seq<bool>, blocks: seq<u32>, j: nat): (r: seq<bool>)
    requires j <= |blocks|
    requires forall k | j <= k < Seqs.IndexOfFrom(blocks, 0, j) :: blocks[k] < |used|
    ensures |r| == |used|
    ensures forall b | 0 <= b < |used| ::
      r[b] <==> used[b] || b in blocks[j .. Seqs.IndexOfFrom(blocks, 0, j)]
    decreases |blocks| - j
  {
    if j == |blocks| || blocks[j] == 0 then used
    else
      assert Seqs.IndexOfFrom(blocks, 0, j) == Seqs.IndexOfFrom(blocks, 0, j + 1);
      MarkSlots(used[blocks[j] := true], blocks, j + 1)
  }

  /** How the scan obtains entry `ino`: `read_entry_from_nizifs` on the mounted device. */
  type EntryReader = nat -> Result<FileEntry>

  /** Some entry in `from .. count` lists block `b`. */
  ghost predicate ListedFrom(read: EntryReader, count: nat, from: nat, b: nat) {
    exists ino | from <= ino < count :: Lists(read(ino), b)
  }

  datatype ScanResult = Done(used: seq<bool>) | Failed(ino: nat, code: int)

  /** Entries `from .. to` all read successfully. */
  predicate ReadsOk(read: EntryReader, from: nat, to: nat) {
    forall k | from <= k < to :: read(k).Ok?
  }

  /** Every entry from `i` on that the scan reaches lists only blocks below `n`. */
  predicate ReachedFit(read: EntryReader, count: nat, i: nat, n: nat) {
    forall ino | i <= ino < count :: ReadsOk(read, i, ino) ==> Fits(read(ino), n)
  }

  /** After a successful read of entry `i`, what held from `i` on holds from `i + 1` on. */
  lemma ReachedFitStep(read: EntryReader, count: nat, i: nat, n: nat)
    requires i < count && read(i).Ok? && ReachedFit(read, count, i, n)
    ensures Fits(read(i), n) && ReachedFit(read, count, i + 1, n)
  {
    assert ReadsOk(read, i, i);
    forall ino | i + 1 <= ino < count && ReadsOk(read, i + 1, ino)
      ensures Fits(read(ino), n)
    {
      assert ReadsOk(read, i, ino);
    }
  }

  /** A live entry that fits lists, before its first zero slot, only blocks below `n`. */
  lemma LiveSlotsFit(fe: FileEntry, n: nat)
    requires fe.WellFormed() && fe.IsLive() && Fits(Ok(fe), n)
    ensures forall k | 0 <= k < Seqs.IndexOfFrom(fe.blocks, 0, 0) :: fe.blocks[k] < n
  {
    assert fe.blocks[0 .. Seqs.IndexOfFrom(fe.blocks, 0, 0)] == fe.LiveBlocks();
    assert forall k | 0 <= k < Seqs.IndexOfFrom(fe.blocks, 0, 0) :: fe.blocks[k] in fe.LiveBlocks();
  }

  /** The outer loop from entry `i` of `count`: stop at the first entry that cannot be read,
      skip entries whose name starts with NUL, mark the listed blocks of the others. */
  function Scan(read: EntryReader, count: nat, i: nat, used: seq<bool>): (r: ScanResult)
    requires i <= count
    requires ReachedFit(read, count, i, |used|)
    ensures r.Done? <==> ReadsOk(read, i, count)
    ensures r.Failed? ==>
      && i <= r.ino < count
      && read(r.ino) == Err(r.code)
      && ReadsOk(read, i, r.ino)
    ensures r.Done? ==> |r.used| == |used|
    ensures r.Done? ==> forall b | 0 <= b < |used| :: r.used[b] <==> used[b] || ListedFrom(read, count, i, b)
    decreases count - i
  {
    if i == count then Done(used)
    else
      match read(i)
      case Err(code) => Failed(i, code)
      case Ok(fe) =>
        ReachedFitStep(read, count, i, |used|);
        ListedFromStepAll(read, count, i, |used|);
        if !fe.WellFormed() || !fe.IsLive() then
          Scan(read, count, i + 1, used)
        else
          LiveSlotsFit(fe, |used|);
          Scan(read, count, i + 1, MarkSlots(used, fe.blocks, 0))
  }

  lemma ListedFromStepAll(read: EntryReader, count: nat, i: nat, n: nat)
    requires i < count
    ensures forall b | 0 <= b < n :: ListedFrom(read, count, i, b) <==> Lists(read(i), b) || ListedFrom(read, count, i + 1, b)
  {
    forall b | 0 <= b < n {
      ListedFromStep(read, count, i, b);
    }
  }

  lemma ListedFromStep(read: EntryReader, count: nat, i: nat, b: nat)
    requires i < count
    ensures ListedFrom(read, count, i, b) <==> Lists(read(i), b) || ListedFrom(read, count, i + 1, b)
  {
    if ListedFrom(read, count, i, b) && !Lists(read(i), b) {
      var ino :| i <= ino < count && Lists(read(ino), b);
      assert i + 1 <= ino;
    }
  }

  /** The map before the entry scan: blocks below `data_block_start` used, the rest free. */
  function ReservedMap(sb: Superblock): (used: seq<bool>)
    requires sb.dataBlockStart <= sb.partitionSize
    ensures |used| == sb.partitionSize
    ensures forall b | 0 <= b < |used| :: used[b] <==> b < sb.dataBlockStart
  {
    seq(sb.partitionSize, b => b < sb.dataBlockStart)
  }

  /** Where the steps of `init_nizifs_info` end: mounted, refused before the scan with an
      error code, or stopped by entry `ino` whose read returned `code`. */
  datatype Steps = Mounted(info: Info) | Refused(code: int) | ScanFailed(ino: nat, code: int)

  function InitSteps(dev: Device, allocOk: bool): (r: Steps)
    requires MountSafe(dev, allocOk)
    ensures ReadSb(dev).Err? ==> r == Refused(ReadSb(dev).code)
    ensures ReadSb(dev).Ok? && ReadSb(dev).value.fsType != FS_TYPE ==> r == Refused(-EINVAL)
    ensures ReadSb(dev).Ok? && ReadSb(dev).value.fsType == FS_TYPE && !allocOk ==> r == Refused(-ENOMEM)
    ensures r.Refused? ==> r.code < 0
    ensures !r.Refused? ==> ReadSb(dev).Ok? && ReadSb(dev).value.fsType == FS_TYPE && allocOk
    ensures r.ScanFailed? ==>
      && r.ino < ReadSb(dev).value.entryCount
      && ReadEntry(dev, ReadSb(dev).value, r.ino) == Err(r.code)
      && TableReads(dev, ReadSb(dev).value, r.ino)
    ensures r.Mounted? ==> TableReads(dev, ReadSb(dev).value, ReadSb(dev).value.entryCount)
    ensures r.Mounted? ==> r.info.sb == ReadSb(dev).value && |r.info.used| == r.info.sb.partitionSize
    ensures r.Mounted? ==> forall b | 0 <= b < r.info.sb.partitionSize ::
      r.info.used[b] <==> b < r.info.sb.dataBlockStart || Listed(dev, r.info.sb, b)
  {
    match ReadSb(dev)
    case Err(code) => Refused(code)
    case Ok(sb) =>
      if sb.fsType != FS_TYPE then Refused(-EINVAL)
      else if !allocOk then Refused(-ENOMEM)
      else
        var read := (ino: nat) => ReadEntry(dev, sb, ino);
        assert forall ino :: read(ino) == ReadEntry(dev, sb, ino);
        TableReaderAgrees(dev, sb, read);
        TableReaderFits(dev, sb, read);
        var initial := ReservedMap(sb);
        match Scan(read, sb.entryCount, 0, initial)
        case Failed(ino, code) => ScanFailed(ino, code)
        case Done(used) => Mounted(Info(sb, used))
  }

  /** Reading the table through `read` sees the same successes and the same listed blocks as
      reading it directly. */
  lemma TableReaderAgrees(dev: Device, sb: Superblock, read: EntryReader)
    requires dev.Valid()
    requires forall ino :: read(ino) == ReadEntry(dev, sb, ino)
    ensures forall n :: ReadsOk(read, 0, n) <==> TableReads(dev, sb, n)
    ensures forall b :: ListedFrom(read, sb.entryCount, 0, b) <==> Listed(dev, sb, b)
  {
  }

  /** A layout that fits gives the scan through `read` the precondition it needs. */
  lemma TableReaderFits(dev: Device, sb: Superblock, read: EntryReader)
    requires dev.Valid() && LayoutFits(dev, sb)
    requires forall ino :: read(ino) == ReadEntry(dev, sb, ino)
    ensures ReachedFit(read, sb.entryCount, 0, sb.partitionSize)
  {
    forall ino | 0 <= ino < sb.entryCount && ReadsOk(read, 0, ino)
      ensures Fits(read(ino), sb.partitionSize)
    {
      assert TableReads(dev, sb, ino);
    }
  }

  /** The guard in LayoutFits at work: when entry 0 cannot be read the scan stops there, so
      nothing is demanded of the entries after it. */
  lemma FirstReadFailureFits(dev: Device, sb: Superblock)
    requires dev.Valid() && sb.dataBlockStart <= sb.partitionSize <= INT_MAX
    requires ReadEntry(dev, sb, 0).Err?
    ensures LayoutFits(dev, sb)
  {
    assert !TableReads(dev, sb, INT_MAX + 1) by {
      assert !ReadEntry(dev, sb, 0).Ok?;
    }
    forall ino | 0 <= ino < sb.entryCount && TableReads(dev, sb, ino)
      ensures Fits(ReadEntry(dev, sb, ino), sb.partitionSize)
    {
      assert ino == 0;
    }
  }

  /** Whenever mount writes the map, every value the signed index takes stays within `int`:
      the marking loops stop at `partition_size`, and the scan either ends at `entry_count`
      within range or stops at a failing read before entry INT_MAX + 1. */
  lemma SignedIndexInRange(dev: Device)
    requires MountSafe(dev, true) && ReadSb(dev).Ok? && ReadSb(dev).value.fsType == FS_TYPE
    ensures ReadSb(dev).value.dataBlockStart <= ReadSb(dev).value.partitionSize <= INT_MAX
    ensures ReadSb(dev).value.entryCount > INT_MAX ==>
      exists ino | 0 <= ino <= INT_MAX :: ReadEntry(dev, ReadSb(dev).value, ino).Err?
  {
    var sb := ReadSb(dev).value;
    if sb.entryCount > INT_MAX {
      assert !TableReads(dev, sb, INT_MAX + 1);
    }
  }

  /** The scan stops at one entry only: the first whose read fails. */
  lemma FirstFailureUnique(read: EntryReader, bad: nat)
    requires read(bad).Err? && ReadsOk(read, 0, bad)
    ensures forall ino: nat | read(ino).Err? && ReadsOk(read, 0, ino) :: ino == bad
  {
    forall ino: nat | read(ino).Err? && ReadsOk(read, 0, ino)
      ensures ino == bad
    {
      assert ino < bad ==> read(ino).Ok?;
      assert bad < ino ==> read(bad).Ok?;
    }
  }

  /** A failed allocation is refused before either loop writes the map, so it is defined, and
      reported as -ENOMEM, whatever the layout the magic-carrying superblock describes. */
  lemma AllocFailureAnyLayout(dev: Device)
    requires dev.Valid() && dev.blockSize >= BLOCK_SIZE
    requires ReadSb(dev).Ok? && ReadSb(dev).value.fsType == FS_TYPE
    ensures MountSafe(dev, false)
    ensures Mount(dev, false) == Err(-ENOMEM)
    ensures MountAsWritten(dev, false) == Err(-ENOMEM)
  {
  }

  /** `init_nizifs_info` with the status it evidently means to return when an entry read
      fails: that read's own negative error. `allocOk` is whether `vmalloc` succeeded. */
  function Mount(dev: Device, allocOk: bool): (r: Result<Info>)
    requires MountSafe(dev, allocOk)
    ensures ReadSb(dev).Err? ==> r == Err(ReadSb(dev).code)
    ensures ReadSb(dev).Ok? && ReadSb(dev).value.fsType != FS_TYPE ==> r == Err(-EINVAL)
    ensures ReadSb(dev).Ok? && ReadSb(dev).value.fsType == FS_TYPE && !allocOk ==> r == Err(-ENOMEM)
    ensures r.Ok? <==>
      && ReadSb(dev).Ok? && ReadSb(dev).value.fsType == FS_TYPE && allocOk
      && TableReads(dev, ReadSb(dev).value, ReadSb(dev).value.entryCount)
    ensures r.Err? ==> r.code < 0
    ensures ReadSb(dev).Ok? && ReadSb(dev).value.fsType == FS_TYPE && allocOk ==>
      forall ino | 0 <= ino < ReadSb(dev).value.entryCount &&
          ReadEntry(dev, ReadSb(dev).value, ino).Err? && TableReads(dev, ReadSb(dev).value, ino) ::
        r == Err(ReadEntry(dev, ReadSb(dev).value, ino).code)
    ensures r.Ok? ==> r.value.sb == ReadSb(dev).value && |r.value.used| == r.value.sb.partitionSize
    ensures r.Ok? ==> forall b | 0 <= b < r.value.sb.partitionSize ::
      r.value.used[b] <==> b < r.value.sb.dataBlockStart || Listed(dev, r.value.sb, b)
  {
    match InitSteps(dev, allocOk)
    case Mounted(info) => Ok(info)
    case Refused(code) => Err(code)
    case ScanFailed(bad, code) =>
      var sb := ReadSb(dev).value;
      var read := (ino: nat) => ReadEntry(dev, sb, ino);
      assert ReadsOk(read, 0, bad);
      FirstFailureUnique(read, bad);
      assert forall ino | 0 <= ino < sb.entryCount && ReadEntry(dev, sb, ino).Err? && TableReads(dev, sb, ino) ::
          ino == bad by {
        forall ino | 0 <= ino < sb.entryCount && ReadEntry(dev, sb, ino).Err? && TableReads(dev, sb, ino)
          ensures ino == bad
        {
          assert read(ino).Err? && ReadsOk(read, 0, ino);
        }
      }
      Err(code)
  }

  /** `init_nizifs_info` as written: `retval = read_entry_from_nizifs(...) < 0` assigns the
      comparison, so a failed entry read makes it return 1. */
  function MountAsWritten(dev: Device, allocOk: bool): (r: Result<Info>)
    requires MountSafe(dev, allocOk)
    ensures InitSteps(dev, allocOk).ScanFailed? ==> r == Err(1)
    ensures !InitSteps(dev, allocOk).ScanFailed? ==> r == Mount(dev, allocOk)
  {
    match InitSteps(dev, allocOk)
    case Mounted(info) => Ok(info)
    case Refused(code) => Err(code)
    case ScanFailed(_, _) => Err(1)
  }

  /** Once the superblock is accepted, a failing entry read makes the routine as written return
      the positive status 1, where the corrected routine returns a negative error. The caller of
      `init_nizifs_info` is not part of this model. */
  lemma AsWrittenMisreportsScanFailure(dev: Device, allocOk: bool, bad: nat)
    requires MountSafe(dev, allocOk) && allocOk
    requires ReadSb(dev).Ok? && ReadSb(dev).value.fsType == FS_TYPE
    requires bad < ReadSb(dev).value.entryCount && ReadEntry(dev, ReadSb(dev).value, bad).Err?
    ensures MountAsWritten(dev, allocOk) == Err(1)
    ensures Mount(dev, allocOk).Err? && Mount(dev, allocOk).code < 0
  {
    assert !Mount(dev, allocOk).Ok?;
  }
}
